=== FILE: README.md ===
# Azure SDK for Python — client-side rules, modelled in Dafny

This project models the client-side logic of several Azure SDK for Python
packages: what each client checks, computes and changes before and after it
talks to a service. The service itself, the HTTP and AMQP transports, and
the generated REST clients are outside the model. Their answers come in as
parameters (`reply`, `delivered`, `fresh…`), and so do helper functions the
model cannot see (`iso` for `serialize_iso`, `encode` for the queue message
encode policy).

One module per source file, plus two shared modules:

| module | source file | what is modelled |
|---|---|---|
| `Wrappers` | — | `Option`, `Result`, `Outcome`, the error kinds, Python truthiness of an optional string |
| `AccessPolicies` | both ACL codecs | stored access policies: the size limit, policy start and expiry re-serialised in place (aliasing included), decoding identifiers into a map |
| `QueueClient` | `queue_client.py` | update/delete argument resolution and the missing-receipt error, the peek count bound, the message returned by enqueue and update, the queue ACL (limit 15) |
| `ContainerClient` | `aio/container_client_async.py` | the container ACL (limit 5) with lease conditions, the result shape of get ACL, `include` normalisation in `list_blobs`/`walk_blobs` |
| `AppConfiguration` | `aio/azure_configuration_client_async.py` | filter escaping (with Python's `$` rule) and its inverse, etag quoting (RFC 7232 sections 2.3 and 3.1), the `If-Match` header rules, the field merge of an update |
| `SasModels` | `_shared/models.py` | the SAS flag strings `ResourceTypes` ("sco"), `AccountPermissions` ("rwdlacup") and `Services` ("bqf"), `get_enum_value`, `DictMixin` |
| `Lease` | `lease.py` | `get_access_conditions`, the `LeaseClient` constructor, and the id/etag/last-modified updates of each lease operation |
| `Documents` | `documents.py` | the write/read-only operation classification, `ConnectionPolicy` and `DatabaseAccount` defaults |
| `EventProcessor` | `eventprocessor/event_processor.py` | the claim list, the start offset of each claimed partition, cancelling all tasks on stop |
| `Producer` | `producer.py` | outcome to error, the batch size bound, partition-key handling in `send`, target and name of a producer |
| `ConnectionManager` | `_connection_manager.py` | the one-slot shared connection cache and the separate (cache-less) manager |

Python truthiness is spelled out wherever the code relies on it. `Truthy(s)`
holds for a present, non-empty string. An integer is truthy when it is
present and non-zero. `OrElse(a, b)` is Python's `a or b`.

Two source facts worth noting: the queue client allows 15 stored access
policies (`queue_client.py:420-423`) where the container client allows 5, and
`enqueue_message` passes the visibility timeout and the time-to-live through
without comparing them.

## Model

Paths are relative to the repository root.

| member | source | states |
|---|---|---|
| AccessPolicies.CheckCardinality | sdk/storage/azure-storage-queue/azure/storage/queue/queue_client.py:420-423 | fails with ValueError exactly when there are more identifiers than the limit |
| AccessPolicies.WireIdentifiers | sdk/storage/azure-storage-queue/azure/storage/queue/queue_client.py:424-430 | one signed identifier per mapping entry, in order, with that entry's key and policy object |
| AccessPolicies.EncodeSignedIdentifiers | sdk/storage/azure-storage-queue/azure/storage/queue/queue_client.py:419-435 | error iff over the limit, and then nothing changes; otherwise None for an empty mapping, else the wire identifiers; every policy has start and expiry run through serialize_iso once per key it is stored under; permissions untouched |
| AccessPolicies.SerialiseEach | sdk/storage/azure-storage-queue/azure/storage/queue/queue_client.py:424-429 | the loop: appends identifiers in order while serialising each policy once per occurrence so far |
| AccessPolicies.OccurrencesSnoc | sdk/storage/azure-storage-queue/azure/storage/queue/queue_client.py:424-429 | appending one entry adds one occurrence to its own policy object and none to any other |
| AccessPolicies.OccurrencesOfDistinctPolicies | sdk/storage/azure-storage-queue/azure/storage/queue/queue_client.py:424-429 | when no policy object is shared between keys, each is serialised exactly once |
| AccessPolicies.NoOccurrences | sdk/storage/azure-storage-queue/azure/storage/queue/queue_client.py:424-429 | a policy that is not in the mapping is not touched |
| AccessPolicies.AccessPolicy.Empty | sdk/storage/azure-storage-queue/azure/storage/queue/queue_client.py:384 | a default AccessPolicy has no permission, start or expiry |
| AccessPolicies.LastWithId | sdk/storage/azure-storage-queue/azure/storage/queue/queue_client.py:384 | the identifier a dict comprehension keeps for an id: an entry with that id after which no entry has it; there is one iff the id occurs |
| AccessPolicies.DecodeSignedIdentifiers | sdk/storage/azure-storage-queue/azure/storage/queue/queue_client.py:384 | the keys are exactly the returned ids; each maps to the last identifier's policy, or to a fresh empty AccessPolicy when it has none |
| QueueClient.ResolveUpdate | sdk/storage/azure-storage-queue/azure/storage/queue/queue_client.py:621-633 | for a message object a truthy explicit receipt or content wins over the object's own; for a bare id both come only from the arguments |
| QueueClient.UpdateMessageRequest | sdk/storage/azure-storage-queue/azure/storage/queue/queue_client.py:620-649 | ValueError("pop_receipt must be present") iff no receipt resolves; otherwise the resolved id and receipt are sent, a body only when content resolves (encoded), and visibility timeout defaults to 0 |
| QueueClient.UpdateMessage | sdk/storage/azure-storage-queue/azure/storage/queue/queue_client.py:620-662 | the returned message keeps the input's id, insertion time, expiration time and dequeue count, and takes pop receipt and next-visible time from the response; errors before and from the service are passed on |
| QueueClient.DeleteMessageRequest | sdk/storage/azure-storage-queue/azure/storage/queue/queue_client.py:774-782 | resolves id and receipt as update does and raises the same ValueError iff no receipt resolves |
| QueueClient.UpdateAndDeleteAgreeOnReceipt | sdk/storage/azure-storage-queue/azure/storage/queue/queue_client.py:620-636 | update and delete refuse exactly the same arguments and send the same id and receipt |
| QueueClient.EmptyReceiptWithBareIdIsSent | sdk/storage/azure-storage-queue/azure/storage/queue/queue_client.py:774-782 | an empty receipt with a bare id is not refused (only None is) |
| QueueClient.PeekMessagesRequest | sdk/storage/azure-storage-queue/azure/storage/queue/queue_client.py:703-704 | ValueError iff the count is truthy and outside 1..32; None and 0 pass unchanged |
| QueueClient.EnqueueMessage | sdk/storage/azure-storage-queue/azure/storage/queue/queue_client.py:492-512 | sends the encoded text with visibility timeout and time-to-live unchecked; the returned message holds the encoded text and the service's id, times and receipt, no dequeue count |
| QueueClient.SetQueueAccessPolicy | sdk/storage/azure-storage-queue/azure/storage/queue/queue_client.py:419-437 | ValueError iff more than 15 identifiers, and then no policy changes; otherwise None for an empty mapping, else one identifier per entry in order, with start and expiry of each policy serialised once per key it is stored under; permissions untouched |
| QueueClient.GetQueueAccessPolicy | sdk/storage/azure-storage-queue/azure/storage/queue/queue_client.py:377-384 | every returned id is a key, mapped to its policy or a fresh default policy; service errors are passed on |
| ContainerClient.SetContainerAccessPolicy | sdk/storage/azure-storage-blob/azure/storage/blob/aio/container_client_async.py:451-478 | the encoder with limit 5, plus the public access level and the lease access conditions of the lease argument |
| ContainerClient.GetContainerAccessPolicy | sdk/storage/azure-storage-blob/azure/storage/blob/aio/container_client_async.py:400-403 | public access from the header; identifiers as returned, or [] when there are none |
| ContainerClient.NormaliseInclude | sdk/storage/azure-storage-blob/azure/storage/blob/aio/container_client_async.py:506-507 | a truthy non-list becomes a one-element list; lists and falsy values are kept; truthiness is preserved |
| ContainerClient.NormaliseIncludeIdempotent | sdk/storage/azure-storage-blob/azure/storage/blob/aio/container_client_async.py:506-507 | normalising twice equals normalising once |
| ContainerClient.ListBlobsRequest | sdk/storage/azure-storage-blob/azure/storage/blob/aio/container_client_async.py:505-519 | a flat listing: normalised include, no delimiter, prefix and page size passed on |
| ContainerClient.WalkBlobsRequest | sdk/storage/azure-storage-blob/azure/storage/blob/aio/container_client_async.py:521-564 | a hierarchical listing: normalised include, delimiter defaulting to "/" |
| ContainerClient.ListingsAgreeOnInclude | sdk/storage/azure-storage-blob/azure/storage/blob/aio/container_client_async.py:550-551 | both listings send the same include list |
| AppConfiguration.EscapeReserved | sdk/appconfiguration/azure-data-appconfiguration/azure/data/appconfiguration/aio/azure_configuration_client_async.py:24-42 | None stays None, "" becomes "\0", a string is escaped, a list element by element in order |
| AppConfiguration.EscapeEach | sdk/appconfiguration/azure-data-appconfiguration/azure/data/appconfiguration/aio/azure_configuration_client_async.py:35-38 | a list keeps its length and each element is escaped |
| AppConfiguration.UnescapeEscapeFrom | sdk/appconfiguration/azure-data-appconfiguration/azure/data/appconfiguration/aio/azure_configuration_client_async.py:41-42 | each character of the input survives the substitution, in order, and dropping the added backslashes recovers it |
| AppConfiguration.EscapeTextRoundTrip | sdk/appconfiguration/azure-data-appconfiguration/azure/data/appconfiguration/aio/azure_configuration_client_async.py:41-42 | unescaping an escaped string gives the string back |
| AppConfiguration.EscapeFromPlain | sdk/appconfiguration/azure-data-appconfiguration/azure/data/appconfiguration/aio/azure_configuration_client_async.py:41-42 | text without a backslash, comma or inner star is left as it is |
| AppConfiguration.FilterRoundTrip | sdk/appconfiguration/azure-data-appconfiguration/azure/data/appconfiguration/aio/azure_configuration_client_async.py:24-42 | escaping a whole filter (nested lists included) loses nothing, unless a string is exactly "\0" |
| AppConfiguration.EmptyAndNulCollide | sdk/appconfiguration/azure-data-appconfiguration/azure/data/appconfiguration/aio/azure_configuration_client_async.py:33-34 | "" and "\0" are sent identically |
| AppConfiguration.EscapeAndToList | sdk/appconfiguration/azure-data-appconfiguration/azure/data/appconfiguration/aio/azure_configuration_client_async.py:44-49 | None stays None, a string becomes a one-element escaped list, a list is escaped |
| AppConfiguration.QuoteEtag | sdk/appconfiguration/azure-data-appconfiguration/azure/data/appconfiguration/aio/azure_configuration_client_async.py:51-54 | "*" and None unchanged; any other tag wrapped in one pair of double quotes around the unchanged tag |
| AppConfiguration.QuoteEtagInvertible | sdk/appconfiguration/azure-data-appconfiguration/azure/data/appconfiguration/aio/azure_configuration_client_async.py:51-54 | distinct tags are quoted differently |
| AppConfiguration.CaseInsensitive | sdk/appconfiguration/azure-data-appconfiguration/azure/data/appconfiguration/aio/azure_configuration_client_async.py:61 | no headers give an empty dict |
| AppConfiguration.CaseInsensitiveKeys | sdk/appconfiguration/azure-data-appconfiguration/azure/data/appconfiguration/aio/azure_configuration_client_async.py:61 | a name is a key of the dict iff it is the lower-cased name of some given header |
| AppConfiguration.CaseInsensitiveLastWins | sdk/appconfiguration/azure-data-appconfiguration/azure/data/appconfiguration/aio/azure_configuration_client_async.py:61 | a header that no later header matches case-insensitively gives the value stored under its lower-cased name |
| AppConfiguration.UpdateHeaders | sdk/appconfiguration/azure-data-appconfiguration/azure/data/appconfiguration/aio/azure_configuration_client_async.py:56-69 | If-Match is always present: the quoted etag when there is one, else the caller's If-Match or "*"; every other header is the caller's |
| AppConfiguration.PrepUpdateConfigurationSetting | sdk/appconfiguration/azure-data-appconfiguration/azure/data/appconfiguration/aio/azure_configuration_client_async.py:56-69 | ValueError iff the key is empty; otherwise the headers are UpdateHeaders: with an etag If-Match is the quoted etag, without one If-Match becomes "*" only if absent; no other header changes |
| AppConfiguration.ConditionalHeaders | sdk/appconfiguration/azure-data-appconfiguration/azure/data/appconfiguration/aio/azure_configuration_client_async.py:335-340 | set and delete add If-Match (the quoted etag) only when an etag is given |
| AppConfiguration.AddHeaders | sdk/appconfiguration/azure-data-appconfiguration/azure/data/appconfiguration/aio/azure_configuration_client_async.py:237-238 | add sends If-None-Match "*" |
| AppConfiguration.UpdateAlwaysConditional | sdk/appconfiguration/azure-data-appconfiguration/azure/data/appconfiguration/aio/azure_configuration_client_async.py:56-69 | an update always carries If-Match; with an etag it sends what set and delete send; set and delete carry If-Match whenever an etag or an If-Match header is given |
| AppConfiguration.UpdateConfigurationSetting | sdk/appconfiguration/azure-data-appconfiguration/azure/data/appconfiguration/aio/azure_configuration_client_async.py:285-301 | an empty key fails with ValueError before the fetch, leaving the fetched setting unchanged; the headers sent are UpdateHeaders; value, content type and tags are overwritten only when not None; key, label and etag keep their fetched values |
| SasModels.RenderHas | sdk/storage/azure-storage-file/azure/storage/file/_shared/models.py:269-272 | with distinct letters, a letter is printed iff its flag is set |
| SasModels.RenderOnlyLetters | sdk/storage/azure-storage-file/azure/storage/file/_shared/models.py:269-272 | only letters of the alphabet are printed |
| SasModels.RenderSubsequence | sdk/storage/azure-storage-file/azure/storage/file/_shared/models.py:269-272 | the printed letters keep the fixed alphabet order |
| SasModels.ResourceTypes.ToString | sdk/storage/azure-storage-file/azure/storage/file/_shared/models.py:269-272 | a subsequence of "sco" holding exactly the letters of the set flags |
| SasModels.ResourceTypes.Or | sdk/storage/azure-storage-file/azure/storage/file/_shared/models.py:263-267 | parsing the joined strings gives the flag-wise union |
| SasModels.NewResourceTypes | sdk/storage/azure-storage-file/azure/storage/file/_shared/models.py:256-261 | each flag is set iff passed true or its letter occurs in `_str` |
| SasModels.ResourceTypesRoundTrip | sdk/storage/azure-storage-file/azure/storage/file/_shared/models.py:256-272 | parse(print(r)) == r |
| SasModels.ResourceTypesUnion | sdk/storage/azure-storage-file/azure/storage/file/_shared/models.py:263-267 | the union is commutative and idempotent |
| SasModels.AccountPermissions.ToString | sdk/storage/azure-storage-file/azure/storage/file/_shared/models.py:360-368 | a subsequence of "rwdlacup" holding exactly the letters of the set flags |
| SasModels.AccountPermissions.Or | sdk/storage/azure-storage-file/azure/storage/file/_shared/models.py:354-358 | the flag-wise union of all eight flags |
| SasModels.NewAccountPermissions | sdk/storage/azure-storage-file/azure/storage/file/_shared/models.py:341-352 | each flag is set iff passed true or its letter occurs in `_str` |
| SasModels.AccountPermissionsRoundTrip | sdk/storage/azure-storage-file/azure/storage/file/_shared/models.py:341-368 | parsing the rendering, with no flag passed explicitly, gives back all eight flags |
| SasModels.AccountPermissionsIgnoreUnknown | sdk/storage/azure-storage-file/azure/storage/file/_shared/models.py:341-352 | characters outside "rwdlacup" do not change the parse |
| SasModels.AccountPermissionsUnion | sdk/storage/azure-storage-file/azure/storage/file/_shared/models.py:354-358 | the union is commutative and idempotent |
| SasModels.Services.ToString | sdk/storage/azure-storage-file/azure/storage/file/_shared/models.py:414-417 | a subsequence of "bqf" holding exactly the letters of the set flags |
| SasModels.Services.Or | sdk/storage/azure-storage-file/azure/storage/file/_shared/models.py:408-412 | the flag-wise union |
| SasModels.NewServices | sdk/storage/azure-storage-file/azure/storage/file/_shared/models.py:401-406 | each flag is set iff passed true or its letter occurs in `_str` |
| SasModels.ServicesRoundTrip | sdk/storage/azure-storage-file/azure/storage/file/_shared/models.py:401-417 | parse(print(s)) == s |
| SasModels.ServicesUnion | sdk/storage/azure-storage-file/azure/storage/file/_shared/models.py:408-412 | the union is commutative and idempotent |
| SasModels.GetEnumValue | sdk/storage/azure-storage-file/azure/storage/file/_shared/models.py:10-16 | None iff the argument is None or compares equal to "None" or ""; a member's value; otherwise the argument |
| SasModels.GetEnumValueIdempotent | sdk/storage/azure-storage-file/azure/storage/file/_shared/models.py:10-16 | applying the rule to its own result changes nothing, except for a plain enum member whose value is "None" or "" (the first pass gives "None", the second None) |
| SasModels.PublicNames | sdk/storage/azure-storage-file/azure/storage/file/_shared/models.py:198-199 | exactly the names not starting with "_", kept in their order |
| SasModels.PublicNamesDistinct | sdk/storage/azure-storage-file/azure/storage/file/_shared/models.py:198-199 | distinct names give distinct public names, so each is listed once |
| SasModels.PublicNamesSnoc | sdk/storage/azure-storage-file/azure/storage/file/_shared/models.py:173-177 | a name appended to the order adds one public name unless it is private |
| SasModels.DictMixin.constructor | sdk/storage/azure-storage-file/azure/storage/file/_shared/models.py:162 | an empty attribute dictionary |
| SasModels.DictMixin.SetItem | sdk/storage/azure-storage-file/azure/storage/file/_shared/models.py:164-165 | stores the item; a new name goes last in the order |
| SasModels.DictMixin.GetItem | sdk/storage/azure-storage-file/azure/storage/file/_shared/models.py:167-168 | the stored value, KeyError iff absent |
| SasModels.DictMixin.DelItem | sdk/storage/azure-storage-file/azure/storage/file/_shared/models.py:176-177 | sets the entry to None instead of removing it; a present name keeps its place and the count; an absent name is appended and counts when public |
| SasModels.DictMixin.Keys | sdk/storage/azure-storage-file/azure/storage/file/_shared/models.py:198-199 | the public names, each once, in insertion order |
| SasModels.DictMixin.Values | sdk/storage/azure-storage-file/azure/storage/file/_shared/models.py:201-202 | the values of the public names, aligned with Keys |
| SasModels.DictMixin.Items | sdk/storage/azure-storage-file/azure/storage/file/_shared/models.py:204-205 | the public (name, value) pairs, aligned with Keys |
| SasModels.DictMixin.Len | sdk/storage/azure-storage-file/azure/storage/file/_shared/models.py:173-174 | counts only the public names |
| SasModels.DictMixin.HasKey | sdk/storage/azure-storage-file/azure/storage/file/_shared/models.py:192-193 | any stored name, private ones included |
| SasModels.DictMixin.Get | sdk/storage/azure-storage-file/azure/storage/file/_shared/models.py:207-210 | the stored value (even None) when present, the default only when absent |
| SasModels.DictMixin.Equals | sdk/storage/azure-storage-file/azure/storage/file/_shared/models.py:179-183 | equal iff the attribute dictionaries are equal |
| SasModels.DictMixin.Update | sdk/storage/azure-storage-file/azure/storage/file/_shared/models.py:195-196 | stores the pairs in order; new names are appended in the order of their first pair |
| SasModels.StoredLastWins | sdk/storage/azure-storage-file/azure/storage/file/_shared/models.py:195-196 | after an update a name is present iff it was or a pair names it, and holds its last pair's value |
| SasModels.AppendedGrows | sdk/storage/azure-storage-file/azure/storage/file/_shared/models.py:195-196 | after an update the old order is a prefix, and a name is listed iff it was or a pair names it |
| Lease.LeaseTargetOf | sdk/storage/azure-storage-blob/azure/storage/blob/lease.py:66-71 | blob_name is checked first, then container_name; TypeError iff neither |
| Lease.LeaseClient.constructor | sdk/storage/azure-storage-blob/azure/storage/blob/lease.py:61-65 | id is the given lease id, or a fresh UUID when it is falsy; no etag, no last-modified |
| Lease.NewLeaseClient | sdk/storage/azure-storage-blob/azure/storage/blob/lease.py:61-71 | TypeError iff the client is neither kind; otherwise a new client with those fields |
| Lease.LeaseClient.Acquire | sdk/storage/azure-storage-blob/azure/storage/blob/lease.py:117-134 | id and last-modified from the response, etag from the caller's keyword argument; a failed call changes nothing |
| Lease.LeaseClient.TakeResponse | sdk/storage/azure-storage-blob/azure/storage/blob/lease.py:186-188 | etag, id and last-modified from the response |
| Lease.LeaseClient.Renew | sdk/storage/azure-storage-blob/azure/storage/blob/lease.py:172-188 | sends the current id; then etag, id and last-modified from the response |
| Lease.LeaseClient.Release | sdk/storage/azure-storage-blob/azure/storage/blob/lease.py:224-240 | sends the current id; then etag, id and last-modified from the response |
| Lease.LeaseClient.Change | sdk/storage/azure-storage-blob/azure/storage/blob/lease.py:275-292 | sends the current and the proposed id; then etag, id and last-modified from the response |
| Lease.LeaseClient.BreakLease | sdk/storage/azure-storage-blob/azure/storage/blob/lease.py:333-345 | returns the lease time and changes no field |
| Lease.LeaseClient.Exit | sdk/storage/azure-storage-blob/azure/storage/blob/lease.py:76-77 | leaving the context manager releases the lease |
| Lease.GetAccessConditions | sdk/storage/azure-storage-blob/azure/storage/blob/lease.py:29-35 | the object's id or the string itself; no conditions iff that id is falsy |
| Documents.NamesDistinct | sdk/cosmos/azure-cosmos/azure/cosmos/documents.py:378-390 | the thirteen operation names are pairwise distinct |
| Documents.ClassificationDisjoint | sdk/cosmos/azure-cosmos/azure/cosmos/documents.py:393-409 | no string is both a write and read-only |
| Documents.WriteOperations | sdk/cosmos/azure-cosmos/azure/cosmos/documents.py:393-400 | exactly Create, Delete, Recreate, ExecuteJavaScript, Replace, Upsert and Update are writes |
| Documents.ReadOnlyOperations | sdk/cosmos/azure-cosmos/azure/cosmos/documents.py:403-409 | exactly Read, ReadFeed, Head, HeadFeed, Query and SqlQuery are read-only |
| Documents.ExactlyOneClass | sdk/cosmos/azure-cosmos/azure/cosmos/documents.py:378-409 | every declared operation type is in exactly one class |
| Documents.ClassifiedNamesAreDeclared | sdk/cosmos/azure-cosmos/azure/cosmos/documents.py:393-409 | a string either predicate accepts is a declared name |
| Documents.NewConnectionPolicy | sdk/cosmos/azure-cosmos/azure/cosmos/documents.py:362-373 | timeouts 60000 and 300000 ms, Gateway, Buffered, discovery on, no preferred locations, SSL verification on, single-region writes |
| Documents.NewDatabaseAccount | sdk/cosmos/azure-cosmos/azure/cosmos/documents.py:55-66 | empty links, zero storage counters, no writable or readable locations |
| EventProcessor.OwnershipIndexLastWins | sdk/eventhub/azure-eventhubs/azure/eventhub/eventprocessor/event_processor.py:116-119 | a partition is in the lookup iff listed, and maps to its last listed record |
| EventProcessor.OwnershipIndexKeys | sdk/eventhub/azure-eventhubs/azure/eventhub/eventprocessor/event_processor.py:116-119 | every record is filed under its own partition id |
| EventProcessor.EventProcessor.constructor | sdk/eventhub/azure-eventhubs/azure/eventhub/eventprocessor/event_processor.py:73-82 | initial event position defaults to "-1"; no tasks |
| EventProcessor.EventProcessor.NewOwnership | sdk/eventhub/azure-eventhubs/azure/eventhub/eventprocessor/event_processor.py:126-127 | hub, consumer group, this processor's id, the partition, owner level 0 |
| EventProcessor.EventProcessor.ClaimPartitions | sdk/eventhub/azure-eventhubs/azure/eventhub/eventprocessor/event_processor.py:115-129 | one record per partition id, in order, for that partition: the last listed record unchanged, otherwise a new one |
| EventProcessor.EventProcessor.StartPosition | sdk/eventhub/azure-eventhubs/azure/eventhub/eventprocessor/event_processor.py:136 | the record's offset when present, else the initial event position |
| EventProcessor.EventProcessor.StartClaimedPartitions | sdk/eventhub/azure-eventhubs/azure/eventhub/eventprocessor/event_processor.py:133-145 | one new running task per claimed partition, appended in order, at its start position |
| EventProcessor.PartitionTask.Cancel | sdk/eventhub/azure-eventhubs/azure/eventhub/eventprocessor/event_processor.py:111 | marks the task cancelled and keeps its partition and position |
| EventProcessor.EventProcessor.Stop | sdk/eventhub/azure-eventhubs/azure/eventhub/eventprocessor/event_processor.py:102-111 | every task is cancelled and the list is left empty |
| Producer.Raise | sdk/eventhub/azure-eventhubs/azure/eventhub/producer.py:23-25 | raising a missing condition is a TypeError |
| Producer.ErrorOf | sdk/eventhub/azure-eventhubs/azure/eventhub/producer.py:23-25 | fails with the condition iff the outcome is not Ok |
| Producer.SendOutcome | sdk/eventhub/azure-eventhubs/azure/eventhub/producer.py:139-142 | passes iff Ok; a timeout always reports OperationTimeoutError; other failures raise their condition |
| Producer.SendOutcomeRefinesErrorOf | sdk/eventhub/azure-eventhubs/azure/eventhub/producer.py:139-142 | the send rule is `_error` with the timeout condition substituted |
| Producer.BatchLimit | sdk/eventhub/azure-eventhubs/azure/eventhub/producer.py:187-191 | ValueError iff a truthy max_size exceeds the link maximum; otherwise max_size or the link maximum, never above the latter |
| Producer.TargetFor | sdk/eventhub/azure-eventhubs/azure/eventhub/producer.py:87-88 | with a truthy partition the target is extended by "/Partitions/" and the partition |
| Producer.NameFor | sdk/eventhub/azure-eventhubs/azure/eventhub/producer.py:85-89 | "EHProducer-" and the UUID, plus "-partition" and the partition when truthy |
| Producer.TargetsSeparatePartitions | sdk/eventhub/azure-eventhubs/azure/eventhub/producer.py:87-88 | different partitions give different targets |
| Producer.EventHubProducer.constructor | sdk/eventhub/azure-eventhubs/azure/eventhub/producer.py:67-93 | target and name as above, send timeout 60 by default, nothing pending |
| Producer.EventHubProducer.OnOutcome | sdk/eventhub/azure-eventhubs/azure/eventhub/producer.py:149-159 | records outcome and condition |
| Producer.EventHubProducer.CreateBatch | sdk/eventhub/azure-eventhubs/azure/eventhub/producer.py:184-191 | opens the link only when its maximum is unknown, then applies BatchLimit |
| Producer.EventHubProducer.Send | sdk/eventhub/azure-eventhubs/azure/eventhub/producer.py:223-238 | EventDataError for a batch with another truthy key, with nothing changed; otherwise the key is set on the event or on every event (then wrapped), the wrapper's message is queued alone, afterwards the unsent messages are what the handler still holds, a Timeout replaces the condition by OperationTimeoutError, and the outcome follows SendOutcome |
| Producer.EventData.SetPartitionKey | sdk/eventhub/azure-eventhubs/azure/eventhub/producer.py:31 | the event's partition key becomes the given key (`EventData._set_partition_key` is defined outside these files and is abstracted as this assignment) |
| Producer.SetPartitionKeys | sdk/eventhub/azure-eventhubs/azure/eventhub/producer.py:28-32 | the key is set on every event |
| ConnectionManager.SharedConnectionManager.constructor | sdk/eventhub/azure-eventhubs/azure/eventhub/_connection_manager.py:11-25 | empty slot, encoding "UTF-8" and transport Amqp by default |
| ConnectionManager.SharedConnectionManager.GetConnection | sdk/eventhub/azure-eventhubs/azure/eventhub/_connection_manager.py:27-43 | creates a connection only when the slot is empty, otherwise returns the cached one |
| ConnectionManager.Connection.Destroy | sdk/eventhub/azure-eventhubs/azure/eventhub/_connection_manager.py:48 | the connection is destroyed; its other fields are unchanged |
| ConnectionManager.SharedConnectionManager.CloseConnection | sdk/eventhub/azure-eventhubs/azure/eventhub/_connection_manager.py:45-49 | destroys the cached connection if any; the slot is always left empty |
| ConnectionManager.SharedConnectionManager.ResetConnectionIfBroken | sdk/eventhub/azure-eventhubs/azure/eventhub/_connection_manager.py:51-59 | empties the slot exactly when the cached connection is in CLOSE_RCVD, CLOSE_SENT, DISCARDING or END (the predicate `Broken`); the connection itself and everything else are unchanged |
| ConnectionManager.SeparateConnectionManager.GetConnection | sdk/eventhub/azure-eventhubs/azure/eventhub/_connection_manager.py:66-67 | always None |
| ConnectionManager.SeparateConnectionManager.CloseConnection | sdk/eventhub/azure-eventhubs/azure/eventhub/_connection_manager.py:69-70 | no effect |
| ConnectionManager.SeparateConnectionManager.ResetConnectionIfBroken | sdk/eventhub/azure-eventhubs/azure/eventhub/_connection_manager.py:72-73 | no effect |
| ConnectionManager.GetConnectionManager | sdk/eventhub/azure-eventhubs/azure/eventhub/_connection_manager.py:76-77 | always a new separate manager |

## Left out

- Paging: `AsyncItemPaged`, `BlobPropertiesPaged` and `BlobPrefix` live outside these files. The listings are modelled up to the request they page over.
- Transport, the generated REST clients, `process_storage_error`, retry policies and response deserialisation: their results are parameters.
- `serialize_iso`, the queue message encode policy, encryption and `uuid4`: they come in as function or value parameters.
- `receive_messages` has no client-side checks, so there is nothing to model beyond passing arguments through.
- The asynchronous `_receive` loop, task scheduling, `asyncio.gather` and the sleep after stopping. The `_receive` loop refers to a `CloseReason.LEASE_LOST` the enum does not declare; that branch is not modelled.
- The remaining-time check of `_send_event_data` (floating-point clock arithmetic), `_open`, redirects, `_check_closed` and the retry decorator around sending.
- Producer.Send: `EventDataBatch._from_batch` is not part of this model. The size bound of the batch built from an iterable is set to 0 and is not meaningful.
- `escape_reserved` applied to a value that is neither None, a string nor a list (it uses `str(value)`) is not modelled.
- AppConfiguration.CaseInsensitive: only the lower-cased names are kept, not the spelling the caller used.
- AppConfiguration.CaseInsensitive: `Lower` folds only the letters A to Z, whereas `requests.structures.CaseInsensitiveDict` (imported at `azure_configuration_client_async.py:16`) uses `str.lower()` on all of Unicode; names with other cased letters are keyed differently in the model.
- ConfigurationSetting fields that the update never touches (last modified, locked) are not modelled.
- `DictMixin.__str__`, `__repr__` and `__ne__` (the negation of Equals) are not modelled.
- SasModels.GetEnumValue: only string values are modelled. Enum members whose value is not a string are out of scope.
- Lease options forwarded without inspection are not modelled. These are the lease duration, the break period, timeouts and the modified-access conditions.
- ConnectionPolicy.RetryOptions is defined in another file and is not modelled. Its SSL and proxy configurations are modelled as absent.
- ConnectionManager: the RLock is not modelled and the model is sequential. Connection options other than container id and encoding are not modelled.
- EventProcessor.Ownership: keys of an ownership record other than those listed are not modelled. An "offset" key present with value None is treated as absent.
- Producer.EventHubProducer.constructor, EventProcessor.EventProcessor.constructor, ContainerClient.WalkBlobsRequest: an explicit None is not told apart from an omitted argument (a None send timeout fails in the source at `producer.py:93`; a None initial position or delimiter is passed on), the send timeout is an integer rather than a float, and the initial event position is a string only, not "int or str".
- The union of the flag types is not proved associative. The source does not promise it.

=== FILE: access_policies.dfy ===
/** Stored access policies ("signed identifiers") as the storage clients send
    and receive them. The queue client and the container client share this
    encoder; each passes its own cardinality limit. */
module AccessPolicies {
  import opened Wrappers

  /** A start or expiry time: as the caller set it, or after ISO-8601 serialisation. */
  datatype Stamp = Instant(ticks: int) | Iso(text: string)

  /** A stored access policy. Its fields are public and the encoder rewrites
      `start` and `expiry` in place. */
  class AccessPolicy {
    var permission: Option<string>
    var start: Option<Stamp>
    var expiry: Option<Stamp>

    constructor (permission: Option<string>, start: Option<Stamp>, expiry: Option<Stamp>)
      ensures this.permission == permission && this.start == start && this.expiry == expiry
    {
      this.permission := permission;
      this.start := start;
      this.expiry := expiry;
    }

    /** `AccessPolicy()`: every field unset. */
    constructor Empty()
      ensures permission.None? && start.None? && expiry.None?
    {
      permission, start, expiry := None, None, None;
    }
  }

  /** One wire entry: an identifier and its policy, which may be absent (`null`). */
  datatype SignedIdentifier = SignedIdentifier(id: string, accessPolicy: AccessPolicy?)

  /** A Python dict of identifier to policy, in iteration order. */
  type PolicyEntries = seq<(string, AccessPolicy?)>

  /** Dict keys are distinct. */
  predicate DistinctKeys(entries: PolicyEntries)
  {
    forall i, j :: 0 <= i < j < |entries| ==> entries[i].0 != entries[j].0
  }

  /** The policy objects an encoder may touch. */
  function Policies(entries: PolicyEntries): set<AccessPolicy>
  {
    set i | 0 <= i < |entries| && entries[i].1 != null :: entries[i].1
  }

  /** How many entries carry the policy object `p` (one object may sit under several keys). */
  function Occurrences(entries: PolicyEntries, p: AccessPolicy): nat
  {
    if entries == [] then 0
    else Occurrences(entries[..|entries| - 1], p) + (if entries[|entries| - 1].1 == p then 1 else 0)
  }

  /** `f` applied `n` times to `x`. */
  function Iterate<T>(f: T -> T, x: T, n: nat): T
  {
    if n == 0 then x else f(Iterate(f, x, n - 1))
  }

  /** `start` and `expiry` are `start0` and `expiry0` re-serialised `n` times. */
  ghost predicate Serialised(start: Option<Stamp>, expiry: Option<Stamp>, start0: Option<Stamp>, expiry0: Option<Stamp>,
                             iso: Option<Stamp> -> Option<Stamp>, n: nat)
  {
    start == Iterate(iso, start0, n) && expiry == Iterate(iso, expiry0, n)
  }

  /** The identifier list the encoder emits: one entry per key, in order. */
  function WireIdentifiers(entries: PolicyEntries): (ids: seq<SignedIdentifier>)
    ensures |ids| == |entries|
    ensures forall i :: 0 <= i < |entries| ==> ids[i].id == entries[i].0 && ids[i].accessPolicy == entries[i].1
  {
    if entries == [] then []
    else WireIdentifiers(entries[..|entries| - 1]) + [SignedIdentifier(entries[|entries| - 1].0, entries[|entries| - 1].1)]
  }

  /** The decimal digits of `n`. */
  function Decimal(n: nat): string
    decreases n
  {
    if n < 10 then ["0123456789"[n]] else Decimal(n / 10) + ["0123456789"[n % 10]]
  }

  /** The message of the cardinality error, naming the limit. */
  function TooManyPolicies(limit: nat): string
  {
    "Too many access policies provided. The server does not support setting more than "
    + Decimal(limit) + " access policies on a single resource."
  }

  /** The cardinality check: more than `limit` identifiers is refused. */
  function CheckCardinality(count: nat, limit: nat): (r: Outcome)
    ensures r.Fail? <==> count > limit
    ensures r.Fail? ==> r.error.ValueError?
  {
    if count > limit then
      Fail(ValueError(TooManyPolicies(limit)))
    else Pass
  }

  /** Encodes a policy mapping for a set-access-policy request. Refuses more than
      `limit` entries. Otherwise re-serialises the start and expiry of every
      present policy object in place (once per key it sits under) and returns
      the identifier list, or `None` (clear all policies) for an empty mapping. */
  method EncodeSignedIdentifiers(entries: PolicyEntries, limit: nat, iso: Option<Stamp> -> Option<Stamp>)
    returns (r: Result<Option<seq<SignedIdentifier>>>)
    requires DistinctKeys(entries)
    modifies Policies(entries)
    ensures r.Err? <==> |entries| > limit
    ensures r.Err? ==> r.error.ValueError?
    ensures r.Err? ==> forall p :: p in Policies(entries) ==> p.start == old(p.start) && p.expiry == old(p.expiry)
    ensures r.Ok? ==> r.value == if entries == [] then None else Some(WireIdentifiers(entries))
    ensures r.Ok? ==> forall p :: p in Policies(entries) ==>
      Serialised(p.start, p.expiry, old(p.start), old(p.expiry), iso, Occurrences(entries, p))
    ensures forall p :: p in Policies(entries) ==> p.permission == old(p.permission)
  {
    if entries == [] {
      return Ok(None);
    }
    var check := CheckCardinality(|entries|, limit);
    if check.Fail? {
      return Err(check.error);
    }
    var identifiers := SerialiseEach(entries, iso);
    return Ok(Some(identifiers));
  }

  /** The loop of the encoder: one identifier per entry, re-serialising each present policy. */
  method SerialiseEach(entries: PolicyEntries, iso: Option<Stamp> -> Option<Stamp>) returns (identifiers: seq<SignedIdentifier>)
    modifies Policies(entries)
    ensures identifiers == WireIdentifiers(entries)
    ensures forall p :: p in Policies(entries) ==>
      Serialised(p.start, p.expiry, old(p.start), old(p.expiry), iso, Occurrences(entries, p))
    ensures forall p :: p in Policies(entries) ==> p.permission == old(p.permission)
  {
    identifiers := [];
    var i := 0;
    while i < |entries|
      invariant 0 <= i <= |entries|
      invariant identifiers == WireIdentifiers(entries[..i])
      invariant forall p :: p in Policies(entries) ==>
        Serialised(p.start, p.expiry, old(p.start), old(p.expiry), iso, Occurrences(entries[..i], p))
      invariant forall p :: p in Policies(entries) ==> p.permission == old(p.permission)
    {
      var (key, value) := entries[i];
      label Before:
      if value != null {
        value.start := iso(value.start);
        value.expiry := iso(value.expiry);
      }
      forall p | p in Policies(entries)
        ensures Serialised(p.start, p.expiry, old(p.start), old(p.expiry), iso, Occurrences(entries[..i + 1], p))
      {
        OccurrencesSnoc(entries, i, p);
        assert Serialised(old@Before(p.start), old@Before(p.expiry), old(p.start), old(p.expiry), iso, Occurrences(entries[..i], p));
      }
      assert entries[..i + 1][..i] == entries[..i];
      identifiers := identifiers + [SignedIdentifier(key, value)];
      i := i + 1;
    }
    assert entries[..i] == entries;
  }

  /** Counting one more entry. */
  lemma OccurrencesSnoc(entries: PolicyEntries, i: nat, p: AccessPolicy)
    requires i < |entries|
    ensures Occurrences(entries[..i + 1], p) == Occurrences(entries[..i], p) + (if entries[i].1 == p then 1 else 0)
  {
    assert entries[..i + 1][..i] == entries[..i];
  }

  /** Every present policy object is counted at least once, and exactly once
      when no object sits under two keys: the encoder then serialises each
      policy exactly once. */
  lemma {:induction false} OccurrencesOfDistinctPolicies(entries: PolicyEntries, k: nat)
    requires k < |entries| && entries[k].1 != null
    requires forall i, j :: 0 <= i < j < |entries| && entries[i].1 != null ==> entries[i].1 != entries[j].1
    ensures Occurrences(entries, entries[k].1) == 1
  {
    var n := |entries| - 1;
    var init := entries[..n];
    if k == n {
      assert forall i :: 0 <= i < |init| ==> init[i].1 != entries[k].1;
      NoOccurrences(init, entries[k].1);
    } else {
      assert init[k] == entries[k];
      OccurrencesOfDistinctPolicies(init, k);
    }
  }

  /** An object that is no entry's policy occurs zero times. */
  lemma {:induction false} NoOccurrences(entries: PolicyEntries, p: AccessPolicy)
    requires forall i :: 0 <= i < |entries| ==> entries[i].1 != p
    ensures Occurrences(entries, p) == 0
  {
    if entries != [] {
      NoOccurrences(entries[..|entries| - 1], p);
    }
  }

  /** The last identifier in `ids` whose id is `id`, if any. */
  function LastWithId(ids: seq<SignedIdentifier>, id: string): (r: Option<SignedIdentifier>)
    ensures r.Some? ==> r.value in ids && r.value.id == id
    ensures r.None? <==> forall i :: 0 <= i < |ids| ==> ids[i].id != id
    ensures r.Some? ==> exists k :: 0 <= k < |ids| && ids[k] == r.value && forall j :: k < j < |ids| ==> ids[j].id != id
  {
    if ids == [] then None
    else if ids[|ids| - 1].id == id then Some(ids[|ids| - 1])
    else
      var init := ids[..|ids| - 1];
      assert forall i :: 0 <= i < |init| ==> init[i] == ids[i];
      LastWithId(init, id)
  }

  /** The identifiers named in a list. */
  function IdsOf(ids: seq<SignedIdentifier>): set<string>
  {
    set i | 0 <= i < |ids| :: ids[i].id
  }

  /** Decodes the identifier list a get-access-policy call returns into a
      mapping: every listed id is a key, bound to the policy of the last entry
      carrying that id, or to a fresh empty `AccessPolicy()` when that entry
      has no policy. */
  method DecodeSignedIdentifiers(ids: seq<SignedIdentifier>) returns (m: map<string, AccessPolicy>)
    ensures m.Keys == IdsOf(ids)
    ensures forall id :: id in m ==>
      var last := LastWithId(ids, id).value;
      if last.accessPolicy != null then m[id] == last.accessPolicy
      else fresh(m[id]) && m[id].permission.None? && m[id].start.None? && m[id].expiry.None?
  {
    m := map[];
    var i := 0;
    while i < |ids|
      invariant 0 <= i <= |ids|
      invariant m.Keys == IdsOf(ids[..i])
      invariant forall id :: id in m ==>
        var last := LastWithId(ids[..i], id).value;
        if last.accessPolicy != null then m[id] == last.accessPolicy
        else fresh(m[id]) && m[id].permission.None? && m[id].start.None? && m[id].expiry.None?
    {
      assert ids[..i + 1][..i] == ids[..i];
      var s := ids[i];
      var policy: AccessPolicy;
      if s.accessPolicy != null {
        policy := s.accessPolicy;
      } else {
        policy := new AccessPolicy.Empty();
      }
      m := m[s.id := policy];
      i := i + 1;
    }
    assert ids[..i] == ids;
  }
}

=== FILE: app_configuration.dfy ===
/** The string and header rules of the App Configuration client: escaping
    key and label filters, quoting entity tags, preparing the `If-Match`
    header and merging the optional fields of an update. */
module AppConfiguration {
  import opened Wrappers

  // ---------------------------------------------------------------------------
  // Filter escaping
  // ---------------------------------------------------------------------------

  /** A key or label filter argument: None, a string, or a (possibly nested) list. */
  datatype Filter = FilterNone | FilterText(text: string) | FilterList(items: seq<Filter>)

  /** Where Python's `$` (no MULTILINE flag) matches: at the end of the string,
      or just before a newline that ends it. */
  predicate AtEnd(s: string, j: int)
  {
    j == |s| || (j == |s| - 1 && 0 <= j && s[j] == '\n')
  }

  /** The substitution pattern `((?!^)\*(?!$)|\\|,)` matches the character at `i`:
      every backslash and comma, and a star that is neither first nor at the end. */
  predicate Reserved(s: string, i: int)
    requires 0 <= i < |s|
  {
    s[i] == '\\' || s[i] == ',' || (s[i] == '*' && i != 0 && !AtEnd(s, i + 1))
  }

  /** The replacement for the character at `i`: itself, preceded by a backslash if reserved. */
  function EscapeCharAt(s: string, i: int): string
    requires 0 <= i < |s|
  {
    if Reserved(s, i) then ['\\', s[i]] else [s[i]]
  }

  /** The substitution applied from index `i` on. */
  function EscapeFrom(s: string, i: nat): string
    requires i <= |s|
    decreases |s| - i
  {
    if i == |s| then [] else EscapeCharAt(s, i) + EscapeFrom(s, i + 1)
  }

  /** The substitution applied to a whole string. */
  function EscapeText(s: string): string
  {
    EscapeFrom(s, 0)
  }

  /** Reads an escaped filter back: a backslash stands for the character after it. */
  function Unescape(t: string): string
  {
    if t == [] then []
    else if t[0] == '\\' && |t| >= 2 then [t[1]] + Unescape(t[2..])
    else [t[0]] + Unescape(t[1..])
  }

  /** Every character is kept, in order, and Unescape recovers it. */
  lemma {:induction false} UnescapeEscapeFrom(s: string, i: nat)
    requires i <= |s|
    ensures Unescape(EscapeFrom(s, i)) == s[i..]
    decreases |s| - i
  {
    if i < |s| {
      var rest := EscapeFrom(s, i + 1);
      UnescapeEscapeFrom(s, i + 1);
      var t := EscapeCharAt(s, i) + rest;
      if Reserved(s, i) {
        assert t[0] == '\\' && t[1] == s[i] && t[2..] == rest;
      } else {
        assert t[0] == s[i] && t[0] != '\\' && t[1..] == rest;
      }
      assert s[i..] == [s[i]] + s[i + 1..];
    }
  }

  /** Escaping loses nothing: unescaping gives the filter text back. */
  lemma EscapeTextRoundTrip(s: string)
    ensures Unescape(EscapeText(s)) == s
  {
    UnescapeEscapeFrom(s, 0);
  }

  /** A string with no reserved character is left unchanged. */
  lemma {:induction false} EscapeFromPlain(s: string, i: nat)
    requires i <= |s|
    requires forall j :: i <= j < |s| ==> !Reserved(s, j)
    ensures EscapeFrom(s, i) == s[i..]
    decreases |s| - i
  {
    if i < |s| {
      EscapeFromPlain(s, i + 1);
      assert s[i..] == [s[i]] + s[i + 1..];
    }
  }

  /** `escape_reserved`: None stays None, the empty string becomes "\0" (sent
      as %00), a string has its reserved characters escaped, and a list is
      escaped element by element, keeping its length and order. */
  function EscapeReserved(v: Filter): (r: Filter)
    ensures v.FilterNone? <==> r.FilterNone?
    ensures v == FilterText("") ==> r == FilterText("\0")
    ensures v.FilterText? && v.text != "" ==> r == FilterText(EscapeText(v.text))
    ensures v.FilterList? ==> r.FilterList? && |r.items| == |v.items|
    ensures v.FilterList? ==> forall i :: 0 <= i < |v.items| ==> r.items[i] == EscapeReserved(v.items[i])
    decreases v
  {
    match v
    case FilterNone => FilterNone
    case FilterText(s) => if s == "" then FilterText("\0") else FilterText(EscapeText(s))
    case FilterList(items) => FilterList(EscapeEach(items))
  }

  /** EscapeReserved on each element of a list. */
  function EscapeEach(items: seq<Filter>): (r: seq<Filter>)
    ensures |r| == |items|
    ensures forall i :: 0 <= i < |items| ==> r[i] == EscapeReserved(items[i])
    decreases items
  {
    if items == [] then [] else [EscapeReserved(items[0])] + EscapeEach(items[1..])
  }

  /** No string inside the filter is exactly "\0" (which escaping cannot tell from ""). */
  predicate NoNulText(v: Filter)
    decreases v
  {
    match v
    case FilterNone => true
    case FilterText(s) => s != "\0"
    case FilterList(items) => forall i :: 0 <= i < |items| ==> NoNulText(items[i])
  }

  /** Reads an escaped filter back. */
  function UnescapeFilter(v: Filter): Filter
    decreases v
  {
    match v
    case FilterNone => FilterNone
    case FilterText(s) => if s == "\0" then FilterText("") else FilterText(Unescape(s))
    case FilterList(items) => FilterList(seq(|items|, i requires 0 <= i < |items| => UnescapeFilter(items[i])))
  }

  /** Escaping a filter loses nothing as long as no string is exactly "\0". */
  lemma {:induction false} FilterRoundTrip(v: Filter)
    requires NoNulText(v)
    ensures UnescapeFilter(EscapeReserved(v)) == v
    decreases v
  {
    match v
    case FilterNone =>
    case FilterText(s) =>
      if s != "" {
        EscapeTextRoundTrip(s);
        assert Unescape("\0") == "\0";
      }
    case FilterList(items) =>
      var escaped := EscapeReserved(v).items;
      forall i | 0 <= i < |items|
        ensures UnescapeFilter(escaped[i]) == items[i]
      {
        FilterRoundTrip(items[i]);
      }
      assert UnescapeFilter(EscapeReserved(v)).items == items;
  }

  /** "" and "\0" are sent identically. */
  lemma EmptyAndNulCollide()
    ensures EscapeReserved(FilterText("")) == EscapeReserved(FilterText("\0"))
  {
    EscapeFromPlain("\0", 0);
  }

  /** `escape_and_tolist`: None stays None, a string is wrapped into a
      one-element list, and the result is escaped. */
  function EscapeAndToList(v: Filter): (r: Filter)
    ensures v.FilterNone? ==> r.FilterNone?
    ensures v.FilterText? ==> r == FilterList([EscapeReserved(v)])
    ensures v.FilterList? ==> r == EscapeReserved(v)
  {
    match v
    case FilterNone => FilterNone
    case FilterText(_) => EscapeReserved(FilterList([v]))
    case FilterList(_) => EscapeReserved(v)
  }

  // ---------------------------------------------------------------------------
  // Entity tags and the If-Match header
  // ---------------------------------------------------------------------------

  /** `quote_etag`: "*" (any entity, section 3.1 of RFC 7232) and None are left
      as they are; any other tag is wrapped in double quotes, the
      opaque-tag form of section 2.3 of RFC 7232. */
  function QuoteEtag(etag: Option<string>): (r: Option<string>)
    ensures etag.None? ==> r.None?
    ensures etag == Some("*") ==> r == etag
    ensures etag.Some? && etag.value != "*" ==>
      r.Some? && |r.value| == |etag.value| + 2 && r.value[0] == '"' && r.value[|r.value| - 1] == '"'
      && r.value[1..|r.value| - 1] == etag.value
  {
    if etag.Some? && etag.value != "*" then Some("\"" + etag.value + "\"") else etag
  }

  /** The quoting is undone by dropping the first and last character. */
  lemma QuoteEtagInvertible(e: string, f: string)
    requires e != "*" && f != "*"
    requires QuoteEtag(Some(e)) == QuoteEtag(Some(f))
    ensures e == f
  {
    var q := QuoteEtag(Some(e)).value;
    assert q[1..|q| - 1] == e;
  }

  /** ASCII lower-casing, as header names are compared. */
  function LowerChar(c: char): char
  {
    if 'A' <= c <= 'Z' then (c as int + 32) as char else c
  }

  function Lower(s: string): (r: string)
    ensures |r| == |s|
  {
    seq(|s|, i requires 0 <= i < |s| => LowerChar(s[i]))
  }

  /** Headers keyed by lower-cased name, as a case-insensitive dict stores them. */
  type Headers = map<string, string>

  /** `CaseInsensitiveDict(headers)`: later pairs win over earlier ones whose
      names differ only in case; None gives an empty dict. */
  function CaseInsensitive(headers: Option<seq<(string, string)>>): (r: Headers)
    ensures headers.None? ==> r == map[]
  {
    if headers.None? then map[] else FoldHeaders(headers.value)
  }

  function FoldHeaders(pairs: seq<(string, string)>): Headers
  {
    if pairs == [] then map[]
    else FoldHeaders(pairs[..|pairs| - 1])[Lower(pairs[|pairs| - 1].0) := pairs[|pairs| - 1].1]
  }

  /** The keys of a case-insensitive dict are the lower-cased names of the given headers. */
  lemma {:induction false} CaseInsensitiveKeys(pairs: seq<(string, string)>, k: string)
    ensures k in CaseInsensitive(Some(pairs)) <==> exists i :: 0 <= i < |pairs| && Lower(pairs[i].0) == k
    decreases |pairs|
  {
    if pairs != [] {
      var init := pairs[..|pairs| - 1];
      CaseInsensitiveKeys(init, k);
      if k in FoldHeaders(init) {
        var i :| 0 <= i < |init| && Lower(init[i].0) == k;
        assert pairs[i] == init[i];
      }
      if exists i :: 0 <= i < |pairs| && Lower(pairs[i].0) == k {
        var i :| 0 <= i < |pairs| && Lower(pairs[i].0) == k;
        if i < |init| {
          assert init[i] == pairs[i];
        }
      }
    }
  }

  /** The last header with a given name, in any letter case, supplies its value. */
  lemma {:induction false} CaseInsensitiveLastWins(pairs: seq<(string, string)>, i: int)
    ensures 0 <= i < |pairs| && (forall j :: i < j < |pairs| ==> Lower(pairs[j].0) != Lower(pairs[i].0)) ==>
      Lower(pairs[i].0) in CaseInsensitive(Some(pairs)) && CaseInsensitive(Some(pairs))[Lower(pairs[i].0)] == pairs[i].1
    decreases |pairs|
  {
    if 0 <= i < |pairs| - 1 && (forall j :: i < j < |pairs| ==> Lower(pairs[j].0) != Lower(pairs[i].0)) {
      var init := pairs[..|pairs| - 1];
      assert init[i] == pairs[i];
      forall j | i < j < |init|
        ensures Lower(init[j].0) != Lower(init[i].0)
      {
        assert init[j] == pairs[j];
      }
      CaseInsensitiveLastWins(init, i);
      assert Lower(pairs[|pairs| - 1].0) != Lower(pairs[i].0);
    }
  }

  const IfMatch: string := "if-match"
  const IfNoneMatch: string := "if-none-match"

  /** The headers an update sends: If-Match is the quoted etag when there is
      one, otherwise the caller's If-Match (in any letter case) or "*"; every
      other header is the caller's. */
  function UpdateHeaders(etag: Option<string>, headers: Option<seq<(string, string)>>): (r: Headers)
    ensures IfMatch in r
    ensures Truthy(etag) ==> r[IfMatch] == QuoteEtag(etag).value
    ensures !Truthy(etag) ==>
      r[IfMatch] == if IfMatch in CaseInsensitive(headers) then CaseInsensitive(headers)[IfMatch] else "*"
    ensures forall k :: k != IfMatch ==> (k in r <==> k in CaseInsensitive(headers))
    ensures forall k :: k != IfMatch && k in r ==> r[k] == CaseInsensitive(headers)[k]
  {
    var h := CaseInsensitive(headers);
    if Truthy(etag) then h[IfMatch := QuoteEtag(etag).value]
    else if IfMatch in h then h
    else h[IfMatch := "*"]
  }

  /** `prep_update_configuration_setting`: an empty key is refused; with an
      etag, If-Match is set to the quoted etag; without one, If-Match is set to
      "*" only if the caller gave no If-Match header (in any letter case).
      No other header changes. */
  method PrepUpdateConfigurationSetting(key: string, etag: Option<string>, headers: Option<seq<(string, string)>>)
    returns (r: Result<Headers>)
    ensures r.Err? <==> key == ""
    ensures r.Err? ==> r.error.ValueError?
    ensures r.Ok? && Truthy(etag) ==> r.value == CaseInsensitive(headers)[IfMatch := QuoteEtag(etag).value]
    ensures r.Ok? && !Truthy(etag) && IfMatch in CaseInsensitive(headers) ==> r.value == CaseInsensitive(headers)
    ensures r.Ok? && !Truthy(etag) && IfMatch !in CaseInsensitive(headers) ==> r.value == CaseInsensitive(headers)[IfMatch := "*"]
    ensures r.Ok? ==> r.value == UpdateHeaders(etag, headers)
  {
    if key == "" {
      return Err(ValueError("key is mandatory to update a ConfigurationSetting"));
    }
    var customHeaders := CaseInsensitive(headers);
    if Truthy(etag) {
      customHeaders := customHeaders[IfMatch := QuoteEtag(etag).value];
    } else if IfMatch !in customHeaders {
      customHeaders := customHeaders[IfMatch := "*"];
    }
    return Ok(customHeaders);
  }

  /** The headers of set_configuration_setting and delete_configuration_setting:
      If-Match is the quoted etag when there is one, and otherwise untouched. */
  function ConditionalHeaders(etag: Option<string>, headers: Option<seq<(string, string)>>): (r: Headers)
    ensures Truthy(etag) ==> r == CaseInsensitive(headers)[IfMatch := QuoteEtag(etag).value]
    ensures !Truthy(etag) ==> r == CaseInsensitive(headers)
  {
    var h := CaseInsensitive(headers);
    if Truthy(etag) then h[IfMatch := QuoteEtag(etag).value] else h
  }

  /** The headers of add_configuration_setting: If-None-Match is "*" (create only). */
  function AddHeaders(headers: Option<seq<(string, string)>>): (r: Headers)
    ensures r == CaseInsensitive(headers)[IfNoneMatch := "*"]
  {
    CaseInsensitive(headers)[IfNoneMatch := "*"]
  }

  /** An update always carries an If-Match header, and differs from set and
      delete only where no etag and no If-Match header were given. */
  lemma UpdateAlwaysConditional(etag: Option<string>, headers: Option<seq<(string, string)>>)
    ensures IfMatch in UpdateHeaders(etag, headers)
    ensures Truthy(etag) ==> UpdateHeaders(etag, headers) == ConditionalHeaders(etag, headers)
    ensures Truthy(etag) || IfMatch in CaseInsensitive(headers) ==>
      IfMatch in ConditionalHeaders(etag, headers)
  {
  }

  // ---------------------------------------------------------------------------
  // Updating a setting
  // ---------------------------------------------------------------------------

  /** A configuration setting as fetched from the service. */
  class ConfigurationSetting {
    var key: string
    var settingLabel: Option<string>
    var value: Option<string>
    var contentType: Option<string>
    var tags: Option<map<string, string>>
    var etag: Option<string>

    constructor (key: string, settingLabel: Option<string>, value: Option<string>, contentType: Option<string>,
                 tags: Option<map<string, string>>, etag: Option<string>)
      ensures this.key == key && this.settingLabel == settingLabel && this.value == value
      ensures this.contentType == contentType && this.tags == tags && this.etag == etag
    {
      this.key, this.settingLabel, this.value := key, settingLabel, value;
      this.contentType, this.tags, this.etag := contentType, tags, etag;
    }
  }

  /** The write update_configuration_setting issues: the merged setting and the headers. */
  datatype UpdateWrite = UpdateWrite(setting: ConfigurationSetting, key: string, settingLabel: Option<string>, headers: Headers)

  /** `update_configuration_setting`: the headers are prepared first (so an
      empty key fails before anything is fetched); then value, content type and
      tags of the fetched setting are overwritten where the argument is not
      None, and every other field keeps its fetched value. */
  method UpdateConfigurationSetting(key: string, value: Option<string>, contentType: Option<string>,
                                    tags: Option<map<string, string>>, settingLabel: Option<string>, etag: Option<string>,
                                    headers: Option<seq<(string, string)>>, fetched: Result<ConfigurationSetting>)
    returns (r: Result<UpdateWrite>)
    modifies if fetched.Ok? then {fetched.value} else {}
    ensures key == "" ==> r.Err? && r.error.ValueError?
    ensures key != "" && fetched.Err? ==> r == Err(fetched.error)
    ensures key != "" && fetched.Ok? ==> r.Ok?
    ensures r.Ok? ==>
      var s := fetched.value;
      && fetched.Ok? && r.value.setting == s
      && r.value.key == key && r.value.settingLabel == settingLabel
      && s.value == (if value.Some? then value else old(s.value))
      && s.contentType == (if contentType.Some? then contentType else old(s.contentType))
      && s.tags == (if tags.Some? then tags else old(s.tags))
      && s.key == old(s.key) && s.settingLabel == old(s.settingLabel) && s.etag == old(s.etag)
    ensures r.Ok? ==> r.value.headers == UpdateHeaders(etag, headers) && IfMatch in r.value.headers
    ensures key == "" && fetched.Ok? ==> unchanged(fetched.value)
  {
    var customHeaders := PrepUpdateConfigurationSetting(key, etag, headers);
    if customHeaders.Err? {
      return Err(customHeaders.error);
    }
    if fetched.Err? {
      return Err(fetched.error);
    }
    var current := fetched.value;
    if value.Some? {
      current.value := value;
    }
    if contentType.Some? {
      current.contentType := contentType;
    }
    if tags.Some? {
      current.tags := tags;
    }
    return Ok(UpdateWrite(current, key, settingLabel, customHeaders.value));
  }
}

=== FILE: connection_manager.dfy ===
/** The Event Hub client's AMQP connection cache: a shared manager holding at
    most one connection, and the separate manager that holds none. */
module ConnectionManager {
  import opened Wrappers

  /** The connection states of section 2.4.6 of the AMQP 1.0 specification, and the library's Error state. */
  datatype ConnectionState =
    | Start | HdrRcvd | HdrSent | HdrExch | OpenPipe | OcPipe | OpenRcvd | OpenSent
    | ClosePipe | Opened | CloseRcvd | CloseSent | Discarding | End | Error

  /** The states after which the cached connection can no longer be used. */
  predicate Broken(state: ConnectionState)
  {
    state == CloseRcvd || state == CloseSent || state == Discarding || state == End
  }

  datatype TransportType = Amqp | AmqpOverWebsocket

  /** An AMQP connection; its state is driven by the transport. */
  class Connection {
    const host: string
    const auth: string
    const containerId: Option<string>
    const encoding: string
    var state: ConnectionState
    var destroyed: bool

    constructor (host: string, auth: string, containerId: Option<string>, encoding: string)
      ensures this.host == host && this.auth == auth && this.containerId == containerId && this.encoding == encoding
      ensures state == Start && !destroyed
    {
      this.host, this.auth, this.containerId, this.encoding := host, auth, containerId, encoding;
      state := Start;
      destroyed := false;
    }

    method Destroy()
      modifies this
      ensures destroyed && state == old(state)
    {
      destroyed := true;
    }
  }

  /** The manager that shares one connection among all producers and consumers of a client. */
  class SharedConnectionManager {
    var conn: Connection?
    const containerId: Option<string>
    const encoding: string
    const transportType: TransportType

    /** A falsy encoding becomes "UTF-8" and a missing transport type becomes Amqp. */
    constructor (containerId: Option<string>, encoding: Option<string>, transportType: Option<TransportType>)
      ensures conn == null && this.containerId == containerId
      ensures this.encoding == if Truthy(encoding) then encoding.value else "UTF-8"
      ensures this.transportType == if transportType.Some? then transportType.value else Amqp
    {
      conn := null;
      this.containerId := containerId;
      this.encoding := OrElse(encoding, Some("UTF-8")).value;
      this.transportType := if transportType.Some? then transportType.value else Amqp;
    }

    /** `get_connection`: a connection to `host` is created only when the slot
        is empty; otherwise the cached one is returned, whatever the host. */
    method GetConnection(host: string, auth: string) returns (c: Connection)
      modifies this
      ensures conn == c
      ensures old(conn) != null ==> c == old(conn)
      ensures old(conn) == null ==>
        fresh(c) && c.host == host && c.auth == auth && c.containerId == containerId
        && c.encoding == encoding && !c.destroyed
    {
      if conn == null {
        conn := new Connection(host, auth, containerId, encoding);
      }
      c := conn;
    }

    /** `close_connection`: the cached connection, if any, is destroyed, and
        the slot is always left empty. */
    method CloseConnection()
      modifies this, conn
      ensures conn == null
      ensures old(conn) != null ==> old(conn).destroyed
    {
      if conn != null {
        conn.Destroy();
      }
      conn := null;
    }

    /** `reset_connection_if_broken`: the slot is emptied only when the cached
        connection is in a broken state; the connection itself is not destroyed. */
    method ResetConnectionIfBroken()
      modifies this
      ensures conn == if old(conn) != null && Broken(old(conn).state) then null else old(conn)
    {
      if conn != null && Broken(conn.state) {
        conn := null;
      }
    }
  }

  /** The manager that keeps no connection: every link opens its own. */
  class SeparateConnectionManager {
    constructor ()
    {
    }

    /** `get_connection` always answers None. */
    method GetConnection(host: string, auth: string) returns (c: Connection?)
      ensures c == null
    {
      c := null;
    }

    /** `close_connection` does nothing. */
    method CloseConnection()
      ensures unchanged(this)
    {
    }

    /** `reset_connection_if_broken` does nothing. */
    method ResetConnectionIfBroken()
      ensures unchanged(this)
    {
    }
  }

  /** `get_connection_manager` always builds a separate manager. */
  method GetConnectionManager() returns (m: SeparateConnectionManager)
    ensures fresh(m)
  {
    m := new SeparateConnectionManager();
  }
}

=== FILE: container_client.dfy ===
/** The container client's access-policy requests and the normalisation of
    the `include` argument of its blob listings. */
module ContainerClient {
  import opened Wrappers
  import AccessPolicies
  import Lease

  /** At most this many stored access policies on a container. */
  const MaxContainerAccessPolicies: nat := 5

  /** The request set_container_access_policy sends. */
  datatype SetAclRequest = SetAclRequest(
    containerAcl: Option<seq<AccessPolicies.SignedIdentifier>>,
    publicAccess: Option<string>,
    leaseConditions: Option<Lease.LeaseAccessConditions>)

  /** set_container_access_policy: refuses more than 5 identifiers before
      anything is sent; otherwise one identifier per entry in order (policies
      re-serialised in place), `None` for an empty mapping, plus the public
      access level and the lease conditions. */
  method SetContainerAccessPolicy(entries: AccessPolicies.PolicyEntries, publicAccess: Option<string>,
                                  lease: Lease.LeaseArg, iso: Option<AccessPolicies.Stamp> -> Option<AccessPolicies.Stamp>)
    returns (r: Result<SetAclRequest>)
    requires AccessPolicies.DistinctKeys(entries)
    modifies AccessPolicies.Policies(entries)
    ensures r.Err? <==> |entries| > MaxContainerAccessPolicies
    ensures r.Err? ==> r.error.ValueError?
    ensures r.Err? ==> forall p :: p in AccessPolicies.Policies(entries) ==>
      p.start == old(p.start) && p.expiry == old(p.expiry)
    ensures r.Ok? ==> r.value.containerAcl == if entries == [] then None else Some(AccessPolicies.WireIdentifiers(entries))
    ensures r.Ok? ==> r.value.publicAccess == publicAccess
    ensures r.Ok? ==> r.value.leaseConditions == Lease.GetAccessConditions(lease)
    ensures r.Ok? ==> forall p :: p in AccessPolicies.Policies(entries) ==>
      AccessPolicies.Serialised(p.start, p.expiry, old(p.start), old(p.expiry), iso, AccessPolicies.Occurrences(entries, p))
    ensures forall p :: p in AccessPolicies.Policies(entries) ==> p.permission == old(p.permission)
  {
    var acl := AccessPolicies.EncodeSignedIdentifiers(entries, MaxContainerAccessPolicies, iso);
    if acl.Err? {
      return Err(acl.error);
    }
    // A lease object is never one of the policy objects, so its id is as it was.
    return Ok(SetAclRequest(acl.value, publicAccess, Lease.GetAccessConditions(lease)));
  }

  /** What get_container_access_policy returns. */
  datatype ContainerAcl = ContainerAcl(publicAccess: Option<string>, signedIdentifiers: seq<AccessPolicies.SignedIdentifier>)

  /** get_container_access_policy: the public access header and the identifier
      list, which is `[]` when the service returns none. */
  function GetContainerAccessPolicy(publicAccessHeader: Option<string>,
                                    identifiers: Option<seq<AccessPolicies.SignedIdentifier>>): (r: ContainerAcl)
    ensures r.publicAccess == publicAccessHeader
    ensures identifiers.None? ==> r.signedIdentifiers == []
    ensures identifiers.Some? ==> r.signedIdentifiers == identifiers.value
  {
    ContainerAcl(publicAccessHeader, if identifiers.Some? then identifiers.value else [])
  }

  /** The `include` argument of a blob listing: None, a single dataset name, or a list. */
  datatype Include = IncludeNone | IncludeOne(name: string) | IncludeList(names: seq<string>)

  /** Python truthiness of `include`. */
  predicate IncludeTruthy(datasets: Include)
  {
    match datasets
    case IncludeNone => false
    case IncludeOne(name) => name != ""
    case IncludeList(names) => names != []
  }

  /** A truthy non-list `include` becomes a one-element list; lists and falsy
      values are left as they are. */
  function NormaliseInclude(datasets: Include): (r: Include)
    ensures datasets.IncludeList? ==> r == datasets
    ensures datasets.IncludeOne? && datasets.name != "" ==> r == IncludeList([datasets.name])
    ensures !IncludeTruthy(datasets) ==> r == datasets
    ensures IncludeTruthy(r) <==> IncludeTruthy(datasets)
  {
    if IncludeTruthy(datasets) && !datasets.IncludeList? then IncludeList([datasets.name]) else datasets
  }

  /** Normalising twice is normalising once. */
  lemma NormaliseIncludeIdempotent(datasets: Include)
    ensures NormaliseInclude(NormaliseInclude(datasets)) == NormaliseInclude(datasets)
  {
  }

  /** The listing request list_blobs and walk_blobs hand to the paging machinery. */
  datatype ListRequest = ListRequest(prefix: Option<string>, datasets: Include, delimiter: Option<string>,
                                     resultsPerPage: Option<int>)

  /** list_blobs: a flat listing with `include` normalised and no delimiter. */
  function ListBlobsRequest(nameStartsWith: Option<string>, datasets: Include, resultsPerPage: Option<int>): (r: ListRequest)
    ensures r.datasets == NormaliseInclude(datasets) && r.delimiter.None?
    ensures r.prefix == nameStartsWith && r.resultsPerPage == resultsPerPage
  {
    ListRequest(nameStartsWith, NormaliseInclude(datasets), None, resultsPerPage)
  }

  /** The delimiter walk_blobs uses when none is passed. */
  const DefaultDelimiter: string := "/"

  /** walk_blobs: a hierarchical listing with `include` normalised the same
      way and the delimiter defaulting to "/" when the argument is omitted. */
  function WalkBlobsRequest(nameStartsWith: Option<string>, datasets: Include, delimiter: Option<string>,
                            resultsPerPage: Option<int>): (r: ListRequest)
    ensures r.datasets == NormaliseInclude(datasets)
    ensures r.delimiter == Some(if delimiter.Some? then delimiter.value else DefaultDelimiter)
    ensures r.prefix == nameStartsWith && r.resultsPerPage == resultsPerPage
  {
    ListRequest(nameStartsWith, NormaliseInclude(datasets), Some(if delimiter.Some? then delimiter.value else DefaultDelimiter), resultsPerPage)
  }

  /** Both listings normalise `include` identically. */
  lemma ListingsAgreeOnInclude(prefix: Option<string>, datasets: Include, delimiter: Option<string>, perPage: Option<int>)
    ensures ListBlobsRequest(prefix, datasets, perPage).datasets == WalkBlobsRequest(prefix, datasets, delimiter, perPage).datasets
  {
  }
}

=== FILE: documents.dfy ===
/** Cosmos DB document-model constants: the operation-type classification
    and the defaults of a connection policy and of a database account. */
module Documents {
  import opened Wrappers

  // ---------------------------------------------------------------------------
  // Operation types
  // ---------------------------------------------------------------------------

  /** The thirteen declared operation types. */
  datatype OperationType =
    | Create | Delete | ExecuteJavaScript | Head | HeadFeed | Query | Read
    | ReadFeed | Recreate | Replace | SqlQuery | Update | Upsert
  {
    /** The string constant the operation type is declared as. */
    function Name(): string
    {
      match this
      case Create => "Create"
      case Delete => "Delete"
      case ExecuteJavaScript => "ExecuteJavaScript"
      case Head => "Head"
      case HeadFeed => "HeadFeed"
      case Query => "Query"
      case Read => "Read"
      case ReadFeed => "ReadFeed"
      case Recreate => "Recreate"
      case Replace => "Replace"
      case SqlQuery => "SqlQuery"
      case Update => "Update"
      case Upsert => "Upsert"
    }
  }

  /** `IsWriteOperation`: equality with one of seven names; any other string is not a write. */
  predicate IsWriteOperation(operationType: string)
  {
    operationType == Create.Name() || operationType == Delete.Name() || operationType == Recreate.Name()
    || operationType == ExecuteJavaScript.Name() || operationType == Replace.Name()
    || operationType == Upsert.Name() || operationType == Update.Name()
  }

  /** `IsReadOnlyOperation`: equality with one of six names. */
  predicate IsReadOnlyOperation(operationType: string)
  {
    operationType == Read.Name() || operationType == ReadFeed.Name() || operationType == Head.Name()
    || operationType == HeadFeed.Name() || operationType == Query.Name() || operationType == SqlQuery.Name()
  }

  /** Distinct operation types have distinct names. */
  lemma NamesDistinct(a: OperationType, b: OperationType)
    requires a != b
    ensures a.Name() != b.Name()
  {
    // length, first and last character already tell the thirteen names apart
    var x, y := a.Name(), b.Name();
    assert (|x|, x[0], x[|x| - 1]) != (|y|, y[0], y[|y| - 1]);
  }

  /** No string is classified both as a write and as read-only. */
  lemma ClassificationDisjoint(operationType: string)
    ensures !(IsWriteOperation(operationType) && IsReadOnlyOperation(operationType))
  {
    if IsWriteOperation(operationType) {
      var w: OperationType :| w in {Create, Delete, Recreate, ExecuteJavaScript, Replace, Upsert, Update} && w.Name() == operationType;
      forall r: OperationType | r in {Read, ReadFeed, Head, HeadFeed, Query, SqlQuery}
        ensures r.Name() != operationType
      {
        NamesDistinct(w, r);
      }
    }
  }

  /** The seven write operation types, and only they, are writes. */
  lemma WriteOperations(op: OperationType)
    ensures IsWriteOperation(op.Name()) <==> op in {Create, Delete, Recreate, ExecuteJavaScript, Replace, Upsert, Update}
  {
    if op !in {Create, Delete, Recreate, ExecuteJavaScript, Replace, Upsert, Update} {
      forall w: OperationType | w in {Create, Delete, Recreate, ExecuteJavaScript, Replace, Upsert, Update}
        ensures w.Name() != op.Name()
      {
        NamesDistinct(w, op);
      }
    }
  }

  /** The six read-only operation types, and only they, are read-only. */
  lemma ReadOnlyOperations(op: OperationType)
    ensures IsReadOnlyOperation(op.Name()) <==> op in {Read, ReadFeed, Head, HeadFeed, Query, SqlQuery}
  {
    if op !in {Read, ReadFeed, Head, HeadFeed, Query, SqlQuery} {
      forall r: OperationType | r in {Read, ReadFeed, Head, HeadFeed, Query, SqlQuery}
        ensures r.Name() != op.Name()
      {
        NamesDistinct(r, op);
      }
    }
  }

  /** Every declared operation type satisfies exactly one of the two predicates. */
  lemma ExactlyOneClass(op: OperationType)
    ensures IsWriteOperation(op.Name()) != IsReadOnlyOperation(op.Name())
  {
    WriteOperations(op);
    ReadOnlyOperations(op);
  }

  /** A string either predicate accepts is the name of a declared operation type. */
  lemma ClassifiedNamesAreDeclared(operationType: string)
    requires IsWriteOperation(operationType) || IsReadOnlyOperation(operationType)
    ensures exists op: OperationType :: op.Name() == operationType
  {
    if operationType == Create.Name() { assert Create.Name() == operationType; }
    else if operationType == Delete.Name() { assert Delete.Name() == operationType; }
    else if operationType == Recreate.Name() { assert Recreate.Name() == operationType; }
    else if operationType == ExecuteJavaScript.Name() { assert ExecuteJavaScript.Name() == operationType; }
    else if operationType == Replace.Name() { assert Replace.Name() == operationType; }
    else if operationType == Upsert.Name() { assert Upsert.Name() == operationType; }
    else if operationType == Update.Name() { assert Update.Name() == operationType; }
    else if operationType == Read.Name() { assert Read.Name() == operationType; }
    else if operationType == ReadFeed.Name() { assert ReadFeed.Name() == operationType; }
    else if operationType == Head.Name() { assert Head.Name() == operationType; }
    else if operationType == HeadFeed.Name() { assert HeadFeed.Name() == operationType; }
    else if operationType == Query.Name() { assert Query.Name() == operationType; }
    else { assert SqlQuery.Name() == operationType; }
  }

  // ---------------------------------------------------------------------------
  // Connection policy and database account
  // ---------------------------------------------------------------------------

  /** Connection modes; Gateway (declared as 0) is the only one. */
  datatype ConnectionMode = Gateway

  /** How attachment content is read. */
  datatype MediaReadMode = Buffered | Streamed

  datatype SslConfiguration = SslConfiguration(keyFile: Option<string>, certFile: Option<string>, caCerts: Option<string>)
  datatype ProxyConfiguration = ProxyConfiguration(host: Option<string>, port: Option<int>)

  /** The connection settings of a Cosmos client (timeouts in milliseconds). */
  datatype ConnectionPolicy = ConnectionPolicy(
    requestTimeout: int,
    mediaRequestTimeout: int,
    connectionMode: ConnectionMode,
    mediaReadMode: MediaReadMode,
    sslConfiguration: Option<SslConfiguration>,
    proxyConfiguration: Option<ProxyConfiguration>,
    enableEndpointDiscovery: bool,
    preferredLocations: seq<string>,
    disableSslVerification: bool,
    useMultipleWriteLocations: bool)

  const DefaultRequestTimeout: int := 60000
  const DefaultMediaRequestTimeout: int := 300000

  /** `ConnectionPolicy()`: a one-minute request timeout, a five-minute media
      timeout, gateway mode, buffered media, endpoint discovery on, no
      preferred locations, SSL verification on, single-region writes. */
  function NewConnectionPolicy(): (p: ConnectionPolicy)
    ensures p.requestTimeout == 60000 && p.mediaRequestTimeout == 300000
    ensures p.connectionMode == Gateway && p.mediaReadMode == Buffered
    ensures p.sslConfiguration.None? && p.proxyConfiguration.None?
    ensures p.enableEndpointDiscovery && p.preferredLocations == []
    ensures !p.disableSslVerification && !p.useMultipleWriteLocations
  {
    ConnectionPolicy(DefaultRequestTimeout, DefaultMediaRequestTimeout, Gateway, Buffered,
                     None, None, true, [], false, false)
  }

  /** A database account as returned by the service. */
  datatype DatabaseAccount = DatabaseAccount(
    databasesLink: string,
    mediaLink: string,
    maxMediaStorageUsageInMB: int,
    currentMediaStorageUsageInMB: int,
    consumedDocumentStorageInMB: int,
    reservedDocumentStorageInMB: int,
    provisionedDocumentStorageInMB: int,
    consistencyPolicy: Option<map<string, string>>,
    writableLocations: seq<string>,
    readableLocations: seq<string>,
    enableMultipleWritableLocations: bool)

  /** `DatabaseAccount()`: empty links, zero storage counters, no consistency
      policy, no writable or readable locations, single-region writes. */
  function NewDatabaseAccount(): (a: DatabaseAccount)
    ensures a.databasesLink == "" && a.mediaLink == ""
    ensures a.maxMediaStorageUsageInMB == 0 && a.currentMediaStorageUsageInMB == 0
    ensures a.consumedDocumentStorageInMB == 0 && a.reservedDocumentStorageInMB == 0
    ensures a.provisionedDocumentStorageInMB == 0
    ensures a.consistencyPolicy.None?
    ensures a.writableLocations == [] && a.readableLocations == []
    ensures !a.enableMultipleWritableLocations
  {
    DatabaseAccount("", "", 0, 0, 0, 0, 0, None, [], [], false)
  }
}

=== FILE: event_processor.dfy ===
/** The event processor's partition bookkeeping: which ownership records it
    asks to claim, where each claimed partition starts reading, and
    cancelling every running partition task on stop. */
module EventProcessor {
  import opened Wrappers

  /** The owner level of every ownership record this processor creates. */
  const OwnerLevel: int := 0

  /** The start position used when a claimed partition has no offset. */
  const DefaultInitialEventPosition: string := "-1"

  /** An ownership record, as listed by and sent to the partition manager. */
  datatype Ownership = Ownership(
    eventhubName: string,
    consumerGroupName: string,
    ownerId: string,
    partitionId: string,
    ownerLevel: int,
    offset: Option<string>)

  /** Why a partition processor was closed. */
  datatype CloseReason = Shutdown | OwnershipLost | EventHubException

  /** The lookup dictionary built from the listed records: a later record for
      the same partition replaces an earlier one. */
  function OwnershipIndex(listed: seq<Ownership>): map<string, Ownership>
  {
    if listed == [] then map[]
    else OwnershipIndex(listed[..|listed| - 1])[listed[|listed| - 1].partitionId := listed[|listed| - 1]]
  }

  /** A partition is in the index iff some listed record names it; the index
      holds the last such record. */
  lemma {:induction false} OwnershipIndexLastWins(listed: seq<Ownership>, pid: string)
    ensures pid in OwnershipIndex(listed) <==> exists i :: 0 <= i < |listed| && listed[i].partitionId == pid
    ensures forall i :: 0 <= i < |listed| && listed[i].partitionId == pid
                        && (forall j :: i < j < |listed| ==> listed[j].partitionId != pid) ==>
      OwnershipIndex(listed)[pid] == listed[i]
  {
    if listed != [] {
      var n := |listed| - 1;
      OwnershipIndexLastWins(listed[..n], pid);
      assert forall i :: 0 <= i < n ==> listed[..n][i] == listed[i];
    }
  }

  /** Every record in the index is filed under its own partition id. */
  lemma {:induction false} OwnershipIndexKeys(listed: seq<Ownership>)
    ensures forall pid :: pid in OwnershipIndex(listed) ==> OwnershipIndex(listed)[pid].partitionId == pid
  {
    if listed != [] {
      OwnershipIndexKeys(listed[..|listed| - 1]);
    }
  }

  /** A task receiving from one partition. */
  class PartitionTask {
    const partitionId: string
    const startPosition: string
    var cancelled: bool

    constructor (partitionId: string, startPosition: string)
      ensures this.partitionId == partitionId && this.startPosition == startPosition && !cancelled
    {
      this.partitionId := partitionId;
      this.startPosition := startPosition;
      cancelled := false;
    }

    method Cancel()
      modifies this
      ensures cancelled
    {
      cancelled := true;
    }
  }

  class EventProcessor {
    const eventhubName: string
    const consumerGroupName: string
    const id: string
    const initialEventPosition: string
    var tasks: seq<PartitionTask>

    /** `initial_event_position` defaults to "-1"; the id is a fresh UUID string. */
    constructor (eventhubName: string, consumerGroupName: string, initialEventPosition: Option<string>, freshId: string)
      ensures this.eventhubName == eventhubName && this.consumerGroupName == consumerGroupName
      ensures id == freshId && tasks == []
      ensures this.initialEventPosition == if initialEventPosition.Some? then initialEventPosition.value else "-1"
    {
      this.eventhubName := eventhubName;
      this.consumerGroupName := consumerGroupName;
      this.initialEventPosition := if initialEventPosition.Some? then initialEventPosition.value else DefaultInitialEventPosition;
      id := freshId;
      tasks := [];
    }

    /** The record this processor proposes for a partition nobody owns. */
    function NewOwnership(pid: string): (r: Ownership)
      ensures r.eventhubName == eventhubName && r.consumerGroupName == consumerGroupName
      ensures r.ownerId == id && r.partitionId == pid && r.ownerLevel == 0 && r.offset.None?
    {
      Ownership(eventhubName, consumerGroupName, id, pid, OwnerLevel, None)
    }

    /** `_claim_partitions`, up to the call that claims: one record per
        partition id, in order — the last listed record for that partition
        unchanged if there is one, otherwise a new record owned by this
        processor. */
    method ClaimPartitions(partitionIds: seq<string>, listed: seq<Ownership>) returns (toClaim: seq<Ownership>)
      ensures |toClaim| == |partitionIds|
      ensures forall i :: 0 <= i < |partitionIds| ==> toClaim[i].partitionId == partitionIds[i]
      ensures forall i :: 0 <= i < |partitionIds| ==>
        toClaim[i] == if partitionIds[i] in OwnershipIndex(listed) then OwnershipIndex(listed)[partitionIds[i]]
                      else NewOwnership(partitionIds[i])
    {
      var index: map<string, Ownership> := map[];
      var k := 0;
      while k < |listed|
        invariant 0 <= k <= |listed|
        invariant index == OwnershipIndex(listed[..k])
      {
        assert listed[..k + 1][..k] == listed[..k];
        index := index[listed[k].partitionId := listed[k]];
        k := k + 1;
      }
      assert listed[..k] == listed;
      OwnershipIndexKeys(listed);
      toClaim := [];
      var i := 0;
      while i < |partitionIds|
        invariant 0 <= i <= |partitionIds| && |toClaim| == i
        invariant forall j :: 0 <= j < i ==> toClaim[j].partitionId == partitionIds[j]
        invariant forall j :: 0 <= j < i ==>
          toClaim[j] == if partitionIds[j] in index then index[partitionIds[j]] else NewOwnership(partitionIds[j])
      {
        var pid := partitionIds[i];
        if pid in index {
          toClaim := toClaim + [index[pid]];
        } else {
          toClaim := toClaim + [NewOwnership(pid)];
        }
        i := i + 1;
      }
    }

    /** The position a claimed partition starts from: its recorded offset, or
        the initial event position when it has none. */
    function StartPosition(claimed: Ownership): (r: string)
      ensures claimed.offset.Some? ==> r == claimed.offset.value
      ensures claimed.offset.None? ==> r == initialEventPosition
    {
      if claimed.offset.Some? then claimed.offset.value else initialEventPosition
    }

    /** `_start_claimed_partitions`: one new, running task per claimed
        partition, appended in order, each starting at StartPosition. */
    method StartClaimedPartitions(claimed: seq<Ownership>)
      modifies this
      ensures |tasks| == |old(tasks)| + |claimed| && tasks[..|old(tasks)|] == old(tasks)
      ensures forall i :: 0 <= i < |claimed| ==>
        var t := tasks[|old(tasks)| + i];
        fresh(t) && !t.cancelled && t.partitionId == claimed[i].partitionId && t.startPosition == StartPosition(claimed[i])
    {
      var i := 0;
      ghost var made: seq<PartitionTask> := [];
      while i < |claimed|
        invariant 0 <= i <= |claimed|
        invariant |made| == i && tasks == old(tasks) + made
        invariant forall j :: 0 <= j < i ==>
          fresh(made[j]) && !made[j].cancelled && made[j].partitionId == claimed[j].partitionId
          && made[j].startPosition == StartPosition(claimed[j])
      {
        var task := new PartitionTask(claimed[i].partitionId, StartPosition(claimed[i]));
        tasks := tasks + [task];
        made := made + [task];
        i := i + 1;
      }
    }

    /** `stop`: pops every task, last first, and cancels it; no task is left. */
    method Stop()
      modifies this, set t | t in tasks
      ensures tasks == []
      ensures forall t :: t in old(tasks) ==> t.cancelled
    {
      ghost var all := tasks;
      var n := |tasks|;
      var i := 0;
      while i < n
        invariant 0 <= i <= n && tasks == all[..n - i]
        invariant forall t :: t in all[n - i..] ==> t.cancelled
        modifies this, set t | t in all
      {
        var task := tasks[|tasks| - 1];
        tasks := tasks[..|tasks| - 1];
        task.Cancel();
        i := i + 1;
      }
    }
  }
}

=== FILE: lease.dfy ===
/** The blob and container lease client: resolving the lease argument of a
    request into access conditions, and the id, etag and last-modified fields
    a LeaseClient updates after each lease operation. */
module Lease {
  import opened Wrappers

  /** A server timestamp. */
  type Timestamp = int

  /** Which generated operations group a lease client drives. */
  datatype LeaseTarget = BlobLease | ContainerLease

  /** What the constructor probes on the client it is given. */
  datatype LeasableClient = LeasableClient(hasBlobName: bool, hasContainerName: bool)

  /** A blob client (it has `blob_name`) is checked first, then a container client. */
  function LeaseTargetOf(client: LeasableClient): (r: Result<LeaseTarget>)
    ensures r == Ok(BlobLease) <==> client.hasBlobName
    ensures r == Ok(ContainerLease) <==> !client.hasBlobName && client.hasContainerName
    ensures r.Err? <==> !client.hasBlobName && !client.hasContainerName
    ensures r.Err? ==> r.error.TypeError?
  {
    if client.hasBlobName then Ok(BlobLease)
    else if client.hasContainerName then Ok(ContainerLease)
    else Err(TypeError("Lease must use either BlobClient or ContainerClient."))
  }

  /** The response headers of a lease call (`response.get(...)` may find nothing). */
  datatype LeaseResponse = LeaseResponse(leaseId: Option<string>, etag: Option<string>,
                                         lastModified: Option<Timestamp>, leaseTime: Option<int>)

  class LeaseClient {
    var id: Option<string>
    var etag: Option<string>
    var lastModified: Option<Timestamp>
    const target: LeaseTarget

    /** A new lease client: the given lease id, or else a freshly generated
        UUID string (passed in, since randomness is outside the model); no etag
        or last-modified time yet. */
    constructor (target: LeaseTarget, leaseId: Option<string>, freshUuid: string)
      ensures id == if Truthy(leaseId) then leaseId else Some(freshUuid)
      ensures etag.None? && lastModified.None?
      ensures this.target == target
    {
      id := OrElse(leaseId, Some(freshUuid));
      etag := None;
      lastModified := None;
      this.target := target;
    }

    /** acquire: proposes the current id; afterwards id and last-modified come
        from the response, but the etag comes from the caller's `etag` keyword
        argument, not from the response. A failed call changes nothing. */
    method Acquire(etagArgument: Option<string>, reply: Result<LeaseResponse>)
      returns (proposedLeaseId: Option<string>, r: Outcome)
      modifies this
      ensures proposedLeaseId == old(id)
      ensures reply.Err? ==> r == Fail(reply.error) && unchanged(this)
      ensures reply.Ok? ==> r == Pass
      ensures reply.Ok? ==> id == reply.value.leaseId && lastModified == reply.value.lastModified && etag == etagArgument
    {
      proposedLeaseId := id;
      if reply.Err? {
        return proposedLeaseId, Fail(reply.error);
      }
      id := reply.value.leaseId;
      lastModified := reply.value.lastModified;
      etag := etagArgument;
      r := Pass;
    }

    /** The field update shared by renew, release and change: etag, id and
        last-modified all come from the response. */
    method TakeResponse(reply: Result<LeaseResponse>) returns (r: Outcome)
      modifies this
      ensures reply.Err? ==> r == Fail(reply.error) && unchanged(this)
      ensures reply.Ok? ==> r == Pass
      ensures reply.Ok? ==> etag == reply.value.etag && id == reply.value.leaseId && lastModified == reply.value.lastModified
    {
      if reply.Err? {
        return Fail(reply.error);
      }
      etag := reply.value.etag;
      id := reply.value.leaseId;
      lastModified := reply.value.lastModified;
      r := Pass;
    }

    /** renew: sends the current id; then takes etag, id and last-modified from the response. */
    method Renew(reply: Result<LeaseResponse>) returns (sentLeaseId: Option<string>, r: Outcome)
      modifies this
      ensures sentLeaseId == old(id)
      ensures reply.Err? ==> r == Fail(reply.error) && unchanged(this)
      ensures reply.Ok? ==> r == Pass
      ensures reply.Ok? ==> etag == reply.value.etag && id == reply.value.leaseId && lastModified == reply.value.lastModified
    {
      sentLeaseId := id;
      r := TakeResponse(reply);
    }

    /** release: sends the current id; then takes etag, id and last-modified from the response. */
    method Release(reply: Result<LeaseResponse>) returns (sentLeaseId: Option<string>, r: Outcome)
      modifies this
      ensures sentLeaseId == old(id)
      ensures reply.Err? ==> r == Fail(reply.error) && unchanged(this)
      ensures reply.Ok? ==> r == Pass
      ensures reply.Ok? ==> etag == reply.value.etag && id == reply.value.leaseId && lastModified == reply.value.lastModified
    {
      sentLeaseId := id;
      r := TakeResponse(reply);
    }

    /** change: sends the current id and the proposed one; then takes etag, id
        and last-modified from the response (the new id is whatever the
        service reports). */
    method Change(proposedLeaseId: string, reply: Result<LeaseResponse>)
      returns (sentLeaseId: Option<string>, sentProposal: string, r: Outcome)
      modifies this
      ensures sentLeaseId == old(id) && sentProposal == proposedLeaseId
      ensures reply.Err? ==> r == Fail(reply.error) && unchanged(this)
      ensures reply.Ok? ==> r == Pass
      ensures reply.Ok? ==> etag == reply.value.etag && id == reply.value.leaseId && lastModified == reply.value.lastModified
    {
      sentLeaseId, sentProposal := id, proposedLeaseId;
      r := TakeResponse(reply);
    }

    /** break_lease: returns the response's lease time and leaves every field as it was. */
    method BreakLease(reply: Result<LeaseResponse>) returns (r: Result<Option<int>>)
      ensures reply.Err? ==> r == Err(reply.error)
      ensures reply.Ok? ==> r == Ok(reply.value.leaseTime)
    {
      if reply.Err? {
        return Err(reply.error);
      }
      return Ok(reply.value.leaseTime);
    }

    /** Leaving the `with` block releases the lease. */
    method Exit(reply: Result<LeaseResponse>) returns (sentLeaseId: Option<string>, r: Outcome)
      modifies this
      ensures sentLeaseId == old(id)
      ensures reply.Err? ==> r == Fail(reply.error) && unchanged(this)
      ensures reply.Ok? ==> r == Pass
      ensures reply.Ok? ==> etag == reply.value.etag && id == reply.value.leaseId && lastModified == reply.value.lastModified
    {
      sentLeaseId, r := Release(reply);
    }
  }

  /** `LeaseClient(client, lease_id)`: raises TypeError unless the client is a
      blob or container client. */
  method NewLeaseClient(client: LeasableClient, leaseId: Option<string>, freshUuid: string)
    returns (r: Result<LeaseClient>)
    ensures r.Err? <==> LeaseTargetOf(client).Err?
    ensures r.Err? ==> r.error.TypeError?
    ensures r.Ok? ==> fresh(r.value) && r.value.target == LeaseTargetOf(client).value
    ensures r.Ok? ==> r.value.id == (if Truthy(leaseId) then leaseId else Some(freshUuid))
    ensures r.Ok? ==> r.value.etag.None? && r.value.lastModified.None?
  {
    var target := LeaseTargetOf(client);
    if target.Err? {
      return Err(target.error);
    }
    var c := new LeaseClient(target.value, leaseId, freshUuid);
    return Ok(c);
  }

  /** The `lease` argument of a storage call: nothing, a lease id string, or a LeaseClient. */
  datatype LeaseArg = NoLease | LeaseId(leaseId: string) | LeaseObject(client: LeaseClient)

  /** The lease access conditions sent with a request. */
  datatype LeaseAccessConditions = LeaseAccessConditions(leaseId: string)

  /** The objects a lease argument's resolution reads. */
  function LeaseFrame(lease: LeaseArg): set<object>
  {
    if lease.LeaseObject? then {lease.client} else {}
  }

  /** get_access_conditions: the lease object's id when it is one, otherwise
      the argument itself; no conditions exactly when that id is falsy. */
  function GetAccessConditions(lease: LeaseArg): (r: Option<LeaseAccessConditions>)
    reads LeaseFrame(lease)
    ensures lease.NoLease? ==> r.None?
    ensures lease.LeaseId? ==> (r.Some? <==> lease.leaseId != "")
    ensures lease.LeaseObject? ==> (r.Some? <==> Truthy(lease.client.id))
    ensures r.Some? && lease.LeaseId? ==> r.value.leaseId == lease.leaseId
    ensures r.Some? && lease.LeaseObject? ==> Some(r.value.leaseId) == lease.client.id
  {
    var leaseId :=
      match lease
      case NoLease => None
      case LeaseId(s) => Some(s)
      case LeaseObject(c) => c.id;
    if Truthy(leaseId) then Some(LeaseAccessConditions(leaseId.value)) else None
  }
}

=== FILE: producer.dfy ===
/** The Event Hub producer's client-side rules: how a delivery outcome
    becomes an error, the batch size bound, how the partition key is applied
    to what is sent, and how the send target is named. */
module Producer {
  import opened Wrappers

  /** The delivery outcomes an AMQP send can report. */
  datatype SendResult = SendOk | SendError | SendTimeout | SendCancelled

  /** What `raise condition` does: raise the condition, or, when there is none,
      fail with a TypeError because None is not an exception. */
  function Raise(condition: Option<Error>): (r: Error)
    ensures condition.Some? ==> r == condition.value
    ensures condition.None? ==> r.TypeError?
  {
    if condition.Some? then condition.value else TypeError("exceptions must derive from BaseException")
  }

  /** `_error`: a delivery fails, with its condition, exactly when the outcome is not Ok. */
  function ErrorOf(outcome: Option<SendResult>, condition: Option<Error>): (r: Outcome)
    ensures r.Pass? <==> outcome == Some(SendOk)
    ensures r.Fail? ==> r.error == Raise(condition)
  {
    if outcome != Some(SendOk) then Fail(Raise(condition)) else Pass
  }

  const SendTimedOut: Error := OperationTimeoutError("send operation timed out")

  /** The end of `_send_event_data`: a Timeout outcome replaces the condition
      by an OperationTimeoutError; any other failing outcome raises the
      condition reported with it. */
  function SendOutcome(outcome: Option<SendResult>, condition: Option<Error>): (r: Outcome)
    ensures r.Pass? <==> outcome == Some(SendOk)
    ensures outcome == Some(SendTimeout) ==> r == Fail(SendTimedOut)
    ensures outcome != Some(SendOk) && outcome != Some(SendTimeout) ==> r == Fail(Raise(condition))
  {
    if outcome != Some(SendOk) then
      var cond := if outcome == Some(SendTimeout) then Some(SendTimedOut) else condition;
      ErrorOf(outcome, cond)
    else Pass
  }

  /** The send rule agrees with `_error` everywhere except that a timeout
      always reports an OperationTimeoutError. */
  lemma SendOutcomeRefinesErrorOf(outcome: Option<SendResult>, condition: Option<Error>)
    ensures outcome != Some(SendTimeout) ==> SendOutcome(outcome, condition) == ErrorOf(outcome, condition)
    ensures outcome == Some(SendTimeout) ==> SendOutcome(outcome, condition) == ErrorOf(outcome, Some(SendTimedOut))
  {
  }

  /** The size bound of `create_batch`: a truthy `max_size` above the link's
      maximum is refused; otherwise the batch holds `max_size`, or the link's
      maximum when `max_size` is falsy. The result never exceeds the link's maximum. */
  function BatchLimit(maxSize: Option<int>, linkMax: int): (r: Result<int>)
    ensures r.Err? <==> maxSize.Some? && maxSize.value != 0 && maxSize.value > linkMax
    ensures r.Err? ==> r.error.ValueError?
    ensures r.Ok? ==> r.value <= linkMax
    ensures r.Ok? ==> r.value == if maxSize.Some? && maxSize.value != 0 then maxSize.value else linkMax
  {
    if maxSize.Some? && maxSize.value != 0 && maxSize.value > linkMax then
      Err(ValueError("Max message size is too large"))
    else if maxSize.Some? && maxSize.value != 0 then Ok(maxSize.value)
    else Ok(linkMax)
  }

  /** The target and client name of a producer: with a truthy partition, the
      target gets "/Partitions/<partition>" and the name "-partition<partition>". */
  function TargetFor(target: string, partition: Option<string>): (r: string)
    ensures !Truthy(partition) ==> r == target
    ensures |r| >= |target|
    ensures Truthy(partition) ==> r[..|target|] == target && r[|target|..] == "/Partitions/" + partition.value
  {
    if Truthy(partition) then target + "/Partitions/" + partition.value else target
  }

  function NameFor(uuid: string, partition: Option<string>): (r: string)
    ensures |r| >= 11 && r[..11] == "EHProducer-"
    ensures !Truthy(partition) ==> r[11..] == uuid
    ensures Truthy(partition) ==> r[11..] == uuid + "-partition" + partition.value
  {
    var name := "EHProducer-" + uuid;
    if Truthy(partition) then name + "-partition" + partition.value else name
  }

  /** Two producers of the same hub with different partitions send to different targets. */
  lemma {:induction false} TargetsSeparatePartitions(target: string, p: string, q: string)
    requires p != "" && q != "" && p != q
    ensures TargetFor(target, Some(p)) != TargetFor(target, Some(q))
  {
    var tp, tq := TargetFor(target, Some(p)), TargetFor(target, Some(q));
    var prefix := |target| + |"/Partitions/"|;
    assert tp[prefix..] == p by {
      assert tp[|target|..] == "/Partitions/" + p;
      assert tp[|target|..][|"/Partitions/"|..] == p;
    }
    assert tq[prefix..] == q by {
      assert tq[|target|..] == "/Partitions/" + q;
      assert tq[|target|..][|"/Partitions/"|..] == q;
    }
  }

  /** The AMQP message a send puts on the wire. */
  class AmqpMessage {
    const payload: seq<EventData>
    var onSendComplete: EventHubProducer?

    constructor (payload: seq<EventData>)
      ensures this.payload == payload && onSendComplete == null
    {
      this.payload := payload;
      onSendComplete := null;
    }
  }

  /** One event, with the partition key it will be routed by. */
  class EventData {
    var partitionKey: Option<string>
    const message: AmqpMessage

    constructor (partitionKey: Option<string>)
      ensures this.partitionKey == partitionKey && fresh(message) && message.payload == []
    {
      this.partitionKey := partitionKey;
      message := new AmqpMessage([]);
    }

    method SetPartitionKey(key: Option<string>)
      modifies this
      ensures partitionKey == key
    {
      partitionKey := key;
    }
  }

  /** A batch of events sent as one message. */
  class EventDataBatch {
    const maxSize: int
    const partitionKey: Option<string>
    const message: AmqpMessage

    constructor (maxSize: int, partitionKey: Option<string>, events: seq<EventData>)
      ensures this.maxSize == maxSize && this.partitionKey == partitionKey
      ensures fresh(message) && message.payload == events && message.onSendComplete == null
    {
      this.maxSize := maxSize;
      this.partitionKey := partitionKey;
      message := new AmqpMessage(events);
    }
  }

  /** The argument of `send`: one event, a batch, or any other iterable of events. */
  datatype SendArg = Single(event: EventData) | Batch(batch: EventDataBatch) | Events(events: seq<EventData>)

  /** The objects a send may change: the events it sets the key on, and messages. */
  function SendFrame(arg: SendArg): set<object>
  {
    match arg
    case Single(e) => {e, e.message}
    case Batch(b) => {b.message}
    case Events(es) => set e | e in es
  }

  class EventHubProducer {
    var target: string
    const partition: Option<string>
    const name: string
    const sendTimeout: int
    var maxMessageSizeOnLink: Option<int>
    var unsentEvents: Option<seq<AmqpMessage>>
    var outcome: Option<SendResult>
    var condition: Option<Error>

    /** `__init__`: the target and name carry a truthy partition; the send
        timeout defaults to 60 seconds; nothing is pending or delivered yet. */
    constructor (target: string, partition: Option<string>, sendTimeout: Option<int>, uuid: string)
      ensures this.target == TargetFor(target, partition) && this.partition == partition
      ensures name == NameFor(uuid, partition)
      ensures this.sendTimeout == if sendTimeout.Some? then sendTimeout.value else 60
      ensures maxMessageSizeOnLink.None? && unsentEvents.None? && outcome.None? && condition.None?
    {
      this.target := TargetFor(target, partition);
      this.partition := partition;
      name := NameFor(uuid, partition);
      this.sendTimeout := if sendTimeout.Some? then sendTimeout.value else 60;
      maxMessageSizeOnLink := None;
      unsentEvents := None;
      outcome := None;
      condition := None;
    }

    /** `_on_outcome`: records the delivery outcome and its condition. */
    method OnOutcome(outcome: SendResult, condition: Option<Error>)
      modifies this
      ensures this.outcome == Some(outcome) && this.condition == condition
      ensures target == old(target) && maxMessageSizeOnLink == old(maxMessageSizeOnLink)
      ensures unsentEvents == old(unsentEvents)
    {
      this.outcome := Some(outcome);
      this.condition := condition;
    }

    /** `create_batch`: opening the link first when its maximum message size is
        not known yet (`openedLinkMax` is what the opened link reports), then
        the BatchLimit rule. */
    method CreateBatch(maxSize: Option<int>, partitionKey: Option<string>, openedLinkMax: int)
      returns (r: Result<EventDataBatch>)
      modifies this
      ensures maxMessageSizeOnLink ==
        if old(maxMessageSizeOnLink).Some? && old(maxMessageSizeOnLink).value != 0 then old(maxMessageSizeOnLink)
        else Some(openedLinkMax)
      ensures BatchLimit(maxSize, maxMessageSizeOnLink.value).Err? ==> r == Err(BatchLimit(maxSize, maxMessageSizeOnLink.value).error)
      ensures BatchLimit(maxSize, maxMessageSizeOnLink.value).Ok? ==>
        r.Ok? && fresh(r.value) && r.value.maxSize == BatchLimit(maxSize, maxMessageSizeOnLink.value).value
        && r.value.partitionKey == partitionKey && r.value.message.payload == []
      ensures target == old(target) && unsentEvents == old(unsentEvents)
      ensures outcome == old(outcome) && condition == old(condition)
    {
      if maxMessageSizeOnLink.None? || maxMessageSizeOnLink.value == 0 {
        maxMessageSizeOnLink := Some(openedLinkMax);
      }
      var limit := BatchLimit(maxSize, maxMessageSizeOnLink.value);
      if limit.Err? {
        return Err(limit.error);
      }
      var batch := new EventDataBatch(limit.value, partitionKey, []);
      return Ok(batch);
    }

    /** `send`, for one delivery attempt whose outcome is `delivered`: a batch
        whose key differs from a truthy `partition_key` is refused with
        EventDataError before anything changes; otherwise a truthy key is set
        on the single event or on every event of an iterable (which is then
        wrapped into a new batch), and the wrapper's message is queued alone
        (`queued`), with completion reported to this producer. After the wait
        the unsent messages are what the handler still holds (`pending`), a
        Timeout outcome replaces the condition by an OperationTimeoutError,
        and a failing outcome raises the condition (SendOutcome). */
    method Send(arg: SendArg, partitionKey: Option<string>, delivered: (SendResult, Option<Error>),
                pending: seq<AmqpMessage>)
      returns (r: Outcome, wrapper: AmqpMessage?, queued: seq<AmqpMessage>)
      modifies this, SendFrame(arg)
      ensures arg.Batch? && Truthy(partitionKey) && partitionKey != arg.batch.partitionKey ==>
        r.Fail? && r.error.EventDataError? && wrapper == null && queued == [] && unchanged(this, arg.batch.message)
      ensures !(arg.Batch? && Truthy(partitionKey) && partitionKey != arg.batch.partitionKey) ==>
        && wrapper != null && queued == [wrapper] && wrapper.onSendComplete == this
        && unsentEvents == Some(pending)
        && outcome == Some(delivered.0)
        && condition == (if delivered.0 == SendTimeout then Some(SendTimedOut) else delivered.1)
        && r == ErrorOf(outcome, condition)
        && r == SendOutcome(Some(delivered.0), delivered.1)
      ensures arg.Single? ==>
        wrapper == arg.event.message
        && arg.event.partitionKey == if Truthy(partitionKey) then partitionKey else old(arg.event.partitionKey)
      ensures arg.Batch? && wrapper != null ==> wrapper == arg.batch.message
      ensures arg.Events? ==>
        wrapper != null && fresh(wrapper) && wrapper.payload == arg.events
        && forall i :: 0 <= i < |arg.events| ==>
          arg.events[i].partitionKey == if Truthy(partitionKey) then partitionKey else old(arg.events[i].partitionKey)
      ensures target == old(target) && maxMessageSizeOnLink == old(maxMessageSizeOnLink)
    {
      var message: AmqpMessage;
      match arg {
        case Single(e) =>
          if Truthy(partitionKey) {
            e.SetPartitionKey(partitionKey);
          }
          message := e.message;
        case Batch(b) =>
          if Truthy(partitionKey) && partitionKey != b.partitionKey {
            return Fail(EventDataError("The partition_key does not match the one of the EventDataBatch")), null, [];
          }
          message := b.message;
        case Events(es) =>
          if Truthy(partitionKey) {
            SetPartitionKeys(es, partitionKey);
          }
          var batch := new EventDataBatch(0, partitionKey, es);
          message := batch.message;
      }
      message.onSendComplete := this;
      unsentEvents := Some([message]);
      queued := unsentEvents.value;
      OnOutcome(delivered.0, delivered.1);
      unsentEvents := Some(pending);
      if outcome != Some(SendOk) && outcome == Some(SendTimeout) {
        condition := Some(SendTimedOut);
      }
      return ErrorOf(outcome, condition), message, queued;
    }
  }

  /** `_set_partition_key`: the key is set on every event, in order. */
  method SetPartitionKeys(events: seq<EventData>, key: Option<string>)
    modifies set e | e in events
    ensures forall i :: 0 <= i < |events| ==> events[i].partitionKey == key
  {
    var i := 0;
    while i < |events|
      invariant 0 <= i <= |events|
      invariant forall j :: 0 <= j < i ==> events[j].partitionKey == key
    {
      events[i].SetPartitionKey(key);
      i := i + 1;
    }
  }
}

=== FILE: queue_client.dfy ===
/** The client-side rules of the storage queue client: resolving a message
    handle or bare id plus pop receipt, refusing update and delete without a
    receipt, rebuilding the returned message from the old one and the service
    headers, the peek count bound and the queue access-policy codec. */
module QueueClient {
  import opened Wrappers
  import AccessPolicies

  /** At most this many stored access policies on a queue. */
  const MaxQueueAccessPolicies: nat := 15

  /** A peek asks for between these many messages (inclusive). */
  const MinPeekMessages: int := 1
  const MaxPeekMessages: int := 32

  /** A server timestamp. */
  type Timestamp = int

  /** A queue message as the client hands it out. The encode policy, the
      generated wire record and the service are outside this model. */
  class QueueMessage {
    var id: Option<string>
    var content: Option<string>
    var insertionTime: Option<Timestamp>
    var expirationTime: Option<Timestamp>
    var dequeueCount: Option<int>
    var popReceipt: Option<string>
    var timeNextVisible: Option<Timestamp>

    /** `QueueMessage(content=...)`: every other field unset. */
    constructor (content: Option<string>)
      ensures this.content == content
      ensures id.None? && insertionTime.None? && expirationTime.None? && dequeueCount.None?
      ensures popReceipt.None? && timeNextVisible.None?
    {
      this.content := content;
      id, insertionTime, expirationTime, dequeueCount := None, None, None, None;
      popReceipt, timeNextVisible := None, None;
    }
  }

  /** The `message` argument of update and delete: a message object, or
      anything without an `id` attribute, which is then taken as the id itself. */
  datatype MessageArg = Handle(message: QueueMessage) | BareId(id: string)

  /** The objects a resolution reads. */
  function ArgFrame(arg: MessageArg): set<object>
  {
    if arg.Handle? then {arg.message} else {}
  }

  /** What update_message knows about the message once its arguments are resolved. */
  datatype Resolved = Resolved(
    messageId: Option<string>,
    text: Option<string>,
    receipt: Option<string>,
    insertionTime: Option<Timestamp>,
    expirationTime: Option<Timestamp>,
    dequeueCount: Option<int>)

  /** Resolves update_message's arguments. For a message object a truthy
      explicit receipt or content wins over the object's own; for a bare id
      both come only from the arguments and the time fields are unknown. */
  function ResolveUpdate(arg: MessageArg, popReceipt: Option<string>, content: Option<string>): (r: Resolved)
    reads ArgFrame(arg)
    ensures arg.BareId? ==> r == Resolved(Some(arg.id), content, popReceipt, None, None, None)
    ensures arg.Handle? ==> r.messageId == arg.message.id
    ensures arg.Handle? ==> r.insertionTime == arg.message.insertionTime && r.expirationTime == arg.message.expirationTime
    ensures arg.Handle? ==> r.dequeueCount == arg.message.dequeueCount
    ensures arg.Handle? && Truthy(popReceipt) ==> r.receipt == popReceipt
    ensures arg.Handle? && !Truthy(popReceipt) ==> r.receipt == arg.message.popReceipt
    ensures arg.Handle? && Truthy(content) ==> r.text == content
    ensures arg.Handle? && !Truthy(content) ==> r.text == arg.message.content
  {
    match arg
    case Handle(m) =>
      Resolved(m.id, OrElse(content, m.content), OrElse(popReceipt, m.popReceipt),
               m.insertionTime, m.expirationTime, m.dequeueCount)
    case BareId(id) =>
      Resolved(Some(id), content, popReceipt, None, None, None)
  }

  /** The update request the client sends: id, receipt, optional new body, visibility timeout. */
  datatype UpdateRequest = UpdateRequest(messageId: Option<string>, popReceipt: string, body: Option<string>, visibilityTimeout: int)

  /** The error both update and delete raise when no receipt is available. */
  const MissingReceipt: Error := ValueError("pop_receipt must be present")

  /** Builds the update request, or raises before any service call when no
      receipt resolves. A body is sent only when some content resolves, and it
      is the encoded content; a missing or zero visibility timeout is sent as 0. */
  function UpdateMessageRequest(arg: MessageArg, visibilityTimeout: Option<int>, popReceipt: Option<string>,
                                content: Option<string>, encode: string -> string): (r: Result<UpdateRequest>)
    reads ArgFrame(arg)
    ensures r.Err? <==> ResolveUpdate(arg, popReceipt, content).receipt.None?
    ensures r.Err? ==> r.error == MissingReceipt
    ensures r.Ok? ==> Some(r.value.popReceipt) == ResolveUpdate(arg, popReceipt, content).receipt
    ensures r.Ok? ==> r.value.messageId == ResolveUpdate(arg, popReceipt, content).messageId
    ensures r.Ok? ==> (r.value.body.None? <==> ResolveUpdate(arg, popReceipt, content).text.None?)
    ensures r.Ok? && r.value.body.Some? ==> r.value.body.value == encode(ResolveUpdate(arg, popReceipt, content).text.value)
    ensures r.Ok? ==> r.value.visibilityTimeout == if visibilityTimeout.Some? then visibilityTimeout.value else 0
  {
    var res := ResolveUpdate(arg, popReceipt, content);
    if res.receipt.None? then Err(MissingReceipt)
    else
      var body := if res.text.Some? then Some(encode(res.text.value)) else None;
      Ok(UpdateRequest(res.messageId, res.receipt.value, body, if visibilityTimeout.Some? then visibilityTimeout.value else 0))
  }

  /** The headers an update returns. */
  datatype UpdateResponse = UpdateResponse(popReceipt: Option<string>, timeNextVisible: Option<Timestamp>)

  /** update_message: validates and forms the request, then (given the
      service's reply) returns a new message that keeps the input's id,
      insertion time, expiration time and dequeue count and takes its pop
      receipt and next-visible time from the response. Its content is the
      encoded text that was sent, or None. */
  method UpdateMessage(arg: MessageArg, visibilityTimeout: Option<int>, popReceipt: Option<string>,
                       content: Option<string>, encode: string -> string, reply: Result<UpdateResponse>)
    returns (r: Result<QueueMessage>)
    ensures UpdateMessageRequest(arg, visibilityTimeout, popReceipt, content, encode).Err? ==>
      r == Err(MissingReceipt)
    ensures UpdateMessageRequest(arg, visibilityTimeout, popReceipt, content, encode).Ok? && reply.Err? ==>
      r == Err(reply.error)
    ensures UpdateMessageRequest(arg, visibilityTimeout, popReceipt, content, encode).Ok? && reply.Ok? ==> r.Ok?
    ensures r.Ok? ==>
      var req := UpdateMessageRequest(arg, visibilityTimeout, popReceipt, content, encode).value;
      var res := ResolveUpdate(arg, popReceipt, content);
      && reply.Ok? && fresh(r.value)
      && r.value.id == res.messageId
      && r.value.content == req.body
      && r.value.insertionTime == res.insertionTime
      && r.value.expirationTime == res.expirationTime
      && r.value.dequeueCount == res.dequeueCount
      && r.value.popReceipt == reply.value.popReceipt
      && r.value.timeNextVisible == reply.value.timeNextVisible
  {
    var request := UpdateMessageRequest(arg, visibilityTimeout, popReceipt, content, encode);
    if request.Err? {
      return Err(request.error);
    }
    if reply.Err? {
      return Err(reply.error);
    }
    var res := ResolveUpdate(arg, popReceipt, content);
    var m := new QueueMessage(request.value.body);
    m.id := res.messageId;
    m.insertionTime := res.insertionTime;
    m.expirationTime := res.expirationTime;
    m.dequeueCount := res.dequeueCount;
    m.popReceipt := reply.value.popReceipt;
    m.timeNextVisible := reply.value.timeNextVisible;
    return Ok(m);
  }

  /** The delete request: id and receipt. */
  datatype DeleteRequest = DeleteRequest(messageId: Option<string>, popReceipt: string)

  /** delete_message: resolves id and receipt as update does and raises before
      calling the service when no receipt resolves. */
  function DeleteMessageRequest(arg: MessageArg, popReceipt: Option<string>): (r: Result<DeleteRequest>)
    reads ArgFrame(arg)
    ensures arg.BareId? ==> (r.Err? <==> popReceipt.None?)
    ensures arg.Handle? ==> (r.Err? <==> !Truthy(popReceipt) && arg.message.popReceipt.None?)
    ensures r.Err? ==> r.error == MissingReceipt
    ensures r.Ok? && Truthy(popReceipt) ==> r.value.popReceipt == popReceipt.value
    ensures r.Ok? && arg.Handle? ==> r.value.messageId == arg.message.id
    ensures r.Ok? && arg.BareId? ==> r.value.messageId == Some(arg.id)
  {
    var (messageId, receipt) :=
      match arg
      case Handle(m) => (m.id, OrElse(popReceipt, m.popReceipt))
      case BareId(id) => (Some(id), popReceipt);
    if receipt.None? then Err(MissingReceipt) else Ok(DeleteRequest(messageId, receipt.value))
  }

  /** Update and delete accept and refuse exactly the same message/receipt
      arguments, and send the same id and receipt. */
  lemma UpdateAndDeleteAgreeOnReceipt(arg: MessageArg, visibilityTimeout: Option<int>, popReceipt: Option<string>,
                                      content: Option<string>, encode: string -> string)
    ensures var u := UpdateMessageRequest(arg, visibilityTimeout, popReceipt, content, encode);
            var d := DeleteMessageRequest(arg, popReceipt);
            && (u.Err? <==> d.Err?)
            && (u.Ok? ==> u.value.messageId == d.value.messageId && u.value.popReceipt == d.value.popReceipt)
  {
  }

  /** An empty-string receipt is falsy for a message object (the object's own
      receipt is used instead) but is sent as it is with a bare id. */
  lemma EmptyReceiptWithBareIdIsSent(id: string)
    ensures DeleteMessageRequest(BareId(id), Some("")) == Ok(DeleteRequest(Some(id), ""))
  {
  }

  /** peek_messages' count check: a truthy count outside 1..32 is refused;
      None and 0 skip the check. Returns the count sent to the service. */
  function PeekMessagesRequest(maxMessages: Option<int>): (r: Result<Option<int>>)
    ensures r.Err? <==> maxMessages.Some? && maxMessages.value != 0
                        && (maxMessages.value < MinPeekMessages || maxMessages.value > MaxPeekMessages)
    ensures r.Err? ==> r.error.ValueError?
    ensures r.Ok? ==> r.value == maxMessages
  {
    if maxMessages.Some? && maxMessages.value != 0 && !(MinPeekMessages <= maxMessages.value <= MaxPeekMessages) then
      Err(ValueError("Number of messages to peek should be between 1 and 32"))
    else Ok(maxMessages)
  }

  /** The record the service returns for an enqueued message. */
  datatype Enqueued = Enqueued(messageId: string, insertionTime: Timestamp, expirationTime: Timestamp,
                               popReceipt: string, timeNextVisible: Timestamp)

  /** The enqueue request: encoded text, and visibility timeout and time-to-live
      passed through unchecked (the service enforces their bounds). */
  datatype EnqueueRequest = EnqueueRequest(text: string, visibilityTimeout: Option<int>, timeToLive: Option<int>)

  /** enqueue_message: encodes the content, sends it, and returns a new
      message holding the encoded text and the service's id, times and
      receipt. The dequeue count stays unset. */
  method EnqueueMessage(content: string, visibilityTimeout: Option<int>, timeToLive: Option<int>,
                        encode: string -> string, reply: Result<Enqueued>)
    returns (request: EnqueueRequest, r: Result<QueueMessage>)
    ensures request == EnqueueRequest(encode(content), visibilityTimeout, timeToLive)
    ensures reply.Err? ==> r == Err(reply.error)
    ensures reply.Ok? ==> r.Ok? && fresh(r.value)
    ensures r.Ok? ==>
      && reply.Ok?
      && r.value.content == Some(encode(content))
      && r.value.id == Some(reply.value.messageId)
      && r.value.insertionTime == Some(reply.value.insertionTime)
      && r.value.expirationTime == Some(reply.value.expirationTime)
      && r.value.popReceipt == Some(reply.value.popReceipt)
      && r.value.timeNextVisible == Some(reply.value.timeNextVisible)
      && r.value.dequeueCount.None?
  {
    var text := encode(content);
    request := EnqueueRequest(text, visibilityTimeout, timeToLive);
    if reply.Err? {
      return request, Err(reply.error);
    }
    var e := reply.value;
    var m := new QueueMessage(Some(text));
    m.id := Some(e.messageId);
    m.insertionTime := Some(e.insertionTime);
    m.expirationTime := Some(e.expirationTime);
    m.popReceipt := Some(e.popReceipt);
    m.timeNextVisible := Some(e.timeNextVisible);
    return request, Ok(m);
  }

  /** set_queue_access_policy: at most 15 identifiers; the encoder's rules otherwise. */
  method SetQueueAccessPolicy(entries: AccessPolicies.PolicyEntries, iso: Option<AccessPolicies.Stamp> -> Option<AccessPolicies.Stamp>)
    returns (queueAcl: Result<Option<seq<AccessPolicies.SignedIdentifier>>>)
    requires AccessPolicies.DistinctKeys(entries)
    modifies AccessPolicies.Policies(entries)
    ensures queueAcl.Err? <==> |entries| > MaxQueueAccessPolicies
    ensures queueAcl.Err? ==> queueAcl.error.ValueError?
    ensures queueAcl.Err? ==> forall p :: p in AccessPolicies.Policies(entries) ==>
      p.start == old(p.start) && p.expiry == old(p.expiry)
    ensures queueAcl.Ok? ==> queueAcl.value == if entries == [] then None else Some(AccessPolicies.WireIdentifiers(entries))
    ensures queueAcl.Ok? ==> forall p :: p in AccessPolicies.Policies(entries) ==>
      AccessPolicies.Serialised(p.start, p.expiry, old(p.start), old(p.expiry), iso, AccessPolicies.Occurrences(entries, p))
    ensures forall p :: p in AccessPolicies.Policies(entries) ==> p.permission == old(p.permission)
  {
    queueAcl := AccessPolicies.EncodeSignedIdentifiers(entries, MaxQueueAccessPolicies, iso);
  }

  /** get_queue_access_policy: every returned id maps to its policy, or to a
      fresh default policy when the service sent none. */
  method GetQueueAccessPolicy(reply: Result<seq<AccessPolicies.SignedIdentifier>>)
    returns (r: Result<map<string, AccessPolicies.AccessPolicy>>)
    ensures reply.Err? ==> r == Err(reply.error)
    ensures reply.Ok? ==> r.Ok? && r.value.Keys == AccessPolicies.IdsOf(reply.value)
    ensures r.Ok? ==> reply.Ok? && forall id :: id in r.value ==>
      var last := AccessPolicies.LastWithId(reply.value, id).value;
      if last.accessPolicy != null then r.value[id] == last.accessPolicy
      else fresh(r.value[id]) && r.value[id].permission.None? && r.value[id].start.None? && r.value[id].expiry.None?
  {
    if reply.Err? {
      return Err(reply.error);
    }
    var m := AccessPolicies.DecodeSignedIdentifiers(reply.value);
    return Ok(m);
  }
}

=== FILE: sas_models.dfy ===
/** The shared storage models: the SAS flag-string types (resource types,
    account permissions, services), the enum-value rule and the
    dictionary-like model base. */
module SasModels {
  import opened Wrappers

  // ---------------------------------------------------------------------------
  // Flag strings, in general
  // ---------------------------------------------------------------------------

  /** The letters whose flag is set, in the order of `letters`: the shape of
      every `__str__` below. */
  function Render(letters: string, flags: seq<bool>): string
    requires |flags| == |letters|
    decreases |letters|
  {
    if letters == [] then []
    else (if flags[0] then [letters[0]] else []) + Render(letters[1..], flags[1..])
  }

  /** Each flag is set when given explicitly or when its letter occurs in `text`:
      the shape of every `__init__` below. */
  function ParseFlags(letters: string, explicit: seq<bool>, text: string): (r: seq<bool>)
    requires |explicit| == |letters|
    ensures |r| == |letters|
  {
    seq(|letters|, i requires 0 <= i < |letters| => explicit[i] || letters[i] in text)
  }

  predicate Distinct(letters: string)
  {
    forall i, j :: 0 <= i < j < |letters| ==> letters[i] != letters[j]
  }

  /** `a` is `b` with some characters dropped. */
  predicate Subsequence<T(==)>(a: seq<T>, b: seq<T>)
    decreases |b|
  {
    if a == [] then true
    else if b == [] then false
    else if a[0] == b[0] then Subsequence(a[1..], b[1..])
    else Subsequence(a, b[1..])
  }

  /** Skipping the head of `b` keeps a subsequence a subsequence. */
  lemma {:induction false} SubsequenceSkip<T>(a: seq<T>, b: seq<T>)
    requires b != [] && Subsequence(a, b[1..])
    ensures Subsequence(a, b)
    decreases |b|, 0
  {
    if a != [] && a[0] == b[0] {
      SubsequenceDropHead(a, b[1..]);
    }
  }

  /** Dropping the head of a subsequence leaves a subsequence. */
  lemma {:induction false} SubsequenceDropHead<T>(a: seq<T>, b: seq<T>)
    requires a != [] && Subsequence(a, b)
    ensures Subsequence(a[1..], b)
    decreases |b|, 1
  {
    if a[0] == b[0] {
      SubsequenceSkip(a[1..], b);
    } else {
      SubsequenceDropHead(a, b[1..]);
      SubsequenceSkip(a[1..], b);
    }
  }

  /** With distinct letters, a letter occurs in the rendering exactly when its flag is set. */
  lemma {:induction false} RenderHas(letters: string, flags: seq<bool>)
    requires |flags| == |letters| && Distinct(letters)
    ensures forall i :: 0 <= i < |letters| ==> (letters[i] in Render(letters, flags) <==> flags[i])
    decreases |letters|
  {
    if letters != [] {
      var rest := Render(letters[1..], flags[1..]);
      assert Distinct(letters[1..]) by {
        forall i, j | 0 <= i < j < |letters| - 1
          ensures letters[1..][i] != letters[1..][j]
        {
          assert letters[1..][i] == letters[i + 1] && letters[1..][j] == letters[j + 1];
        }
      }
      RenderHas(letters[1..], flags[1..]);
      RenderOnlyLetters(letters[1..], flags[1..]);
      forall k | 0 <= k < |letters| - 1
        ensures letters[1..][k] != letters[0]
      {
        assert letters[1..][k] == letters[k + 1];
      }
      forall i | 1 <= i < |letters|
        ensures letters[i] in Render(letters, flags) <==> flags[i]
      {
        assert letters[1..][i - 1] == letters[i];
      }
    }
  }

  /** Only letters of the alphabet are rendered. */
  lemma {:induction false} RenderOnlyLetters(letters: string, flags: seq<bool>)
    requires |flags| == |letters|
    ensures forall c :: c in Render(letters, flags) ==> c in letters
    decreases |letters|
  {
    if letters != [] {
      RenderOnlyLetters(letters[1..], flags[1..]);
      assert forall c :: c in letters[1..] ==> c in letters;
    }
  }

  /** The rendering keeps the fixed letter order. */
  lemma {:induction false} RenderSubsequence(letters: string, flags: seq<bool>)
    requires |flags| == |letters| && Distinct(letters)
    ensures Subsequence(Render(letters, flags), letters)
    decreases |letters|
  {
    if letters != [] {
      var rest := Render(letters[1..], flags[1..]);
      assert Distinct(letters[1..]) by {
        forall i, j | 0 <= i < j < |letters| - 1
          ensures letters[1..][i] != letters[1..][j]
        {
          assert letters[1..][i] == letters[i + 1] && letters[1..][j] == letters[j + 1];
        }
      }
      RenderSubsequence(letters[1..], flags[1..]);
      if flags[0] {
        assert ([letters[0]] + rest)[1..] == rest;
      } else {
        assert [] + rest == rest;
        if rest != [] {
          // the head of `rest` is a later letter, so it cannot match letters[0]
          RenderOnlyLetters(letters[1..], flags[1..]);
          assert rest[0] in letters[1..];
          var k :| 0 <= k < |letters[1..]| && letters[1..][k] == rest[0];
          assert letters[k + 1] == rest[0];
        }
      }
    }
  }

  /** The empty string for a falsy `_str`. */
  function TextOrEmpty(text: Option<string>): string
  {
    if text.Some? then text.value else ""
  }

  // ---------------------------------------------------------------------------
  // ResourceTypes
  // ---------------------------------------------------------------------------

  const ResourceTypeLetters: string := "sco"

  /** The resource types a SAS grants: service, container and object level. */
  datatype ResourceTypes = ResourceTypes(service: bool, container: bool, objectLevel: bool)
  {
    function Flags(): seq<bool>
    {
      [service, container, objectLevel]
    }

    /** `__str__`: the letters of the set flags, in the order "sco". */
    function ToString(): (r: string)
      ensures Subsequence(r, ResourceTypeLetters)
      ensures ('s' in r <==> service) && ('c' in r <==> container) && ('o' in r <==> objectLevel)
      ensures forall c :: c in r ==> c in ResourceTypeLetters
    {
      assert Distinct(ResourceTypeLetters);
      RenderHas(ResourceTypeLetters, Flags());
      RenderOnlyLetters(ResourceTypeLetters, Flags());
      RenderSubsequence(ResourceTypeLetters, Flags());
      Render(ResourceTypeLetters, Flags())
    }

    /** `__or__` and `__add__`: parse the two renderings joined, giving the
        flag-wise union. */
    function Or(other: ResourceTypes): (r: ResourceTypes)
      ensures r == ResourceTypes(service || other.service, container || other.container,
                                 objectLevel || other.objectLevel)
    {
      NewResourceTypes(false, false, false, Some(ToString() + other.ToString()))
    }
  }

  /** `ResourceTypes(service, container, objectLevel, _str)`: each flag is set when
      passed as true or when its letter occurs in `_str`; other characters are ignored. */
  function NewResourceTypes(service: bool, container: bool, objectLevel: bool, text: Option<string>): (r: ResourceTypes)
    ensures r.service == (service || 's' in TextOrEmpty(text))
    ensures r.container == (container || 'c' in TextOrEmpty(text))
    ensures r.objectLevel == (objectLevel || 'o' in TextOrEmpty(text))
  {
    var f := ParseFlags(ResourceTypeLetters, [service, container, objectLevel], TextOrEmpty(text));
    ResourceTypes(f[0], f[1], f[2])
  }

  /** Parsing the rendering gives the same flags back. */
  lemma ResourceTypesRoundTrip(r: ResourceTypes)
    ensures NewResourceTypes(false, false, false, Some(r.ToString())) == r
  {
  }

  /** The union is commutative and idempotent. */
  lemma ResourceTypesUnion(a: ResourceTypes, b: ResourceTypes)
    ensures a.Or(b) == b.Or(a)
    ensures a.Or(a) == a
  {
  }

  // ---------------------------------------------------------------------------
  // AccountPermissions
  // ---------------------------------------------------------------------------

  const PermissionLetters: string := "rwdlacup"

  /** The operations an account SAS permits. */
  datatype AccountPermissions = AccountPermissions(read: bool, write: bool, delete: bool, list: bool,
                                                   add: bool, create: bool, update: bool, process: bool)
  {
    function Flags(): seq<bool>
    {
      [read, write, delete, list, add, create, update, process]
    }

    /** `__str__`: the letters of the set flags, in the order "rwdlacup". */
    function ToString(): (r: string)
      ensures Subsequence(r, PermissionLetters)
      ensures ('r' in r <==> read) && ('w' in r <==> write) && ('d' in r <==> delete) && ('l' in r <==> list)
      ensures ('a' in r <==> add) && ('c' in r <==> create) && ('u' in r <==> update) && ('p' in r <==> process)
      ensures forall c :: c in r ==> c in PermissionLetters
    {
      var f := Flags();
      PermissionLettersDistinct();
      RenderHas(PermissionLetters, f);
      PermissionLettersIn(Render(PermissionLetters, f), f);
      RenderOnlyLetters(PermissionLetters, f);
      RenderSubsequence(PermissionLetters, f);
      Render(PermissionLetters, f)
    }

    /** `__or__` and `__add__`: the flag-wise union. */
    function Or(other: AccountPermissions): (r: AccountPermissions)
      ensures r == AccountPermissions(read || other.read, write || other.write, delete || other.delete,
                                      list || other.list, add || other.add, create || other.create,
                                      update || other.update, process || other.process)
    {
      NewAccountPermissions(NoPermissions, Some(ToString() + other.ToString()))
    }
  }

  lemma PermissionLettersDistinct()
    ensures Distinct(PermissionLetters)
  {
  }

  /** No permission granted. */
  const NoPermissions := AccountPermissions(false, false, false, false, false, false, false, false)

  /** Reads the eight letter facts off the index form, on any string `r`. */
  lemma PermissionLettersIn(r: string, f: seq<bool>)
    requires |f| == |PermissionLetters|
    requires forall i :: 0 <= i < |PermissionLetters| ==> (PermissionLetters[i] in r <==> f[i])
    ensures ('r' in r <==> f[0]) && ('w' in r <==> f[1]) && ('d' in r <==> f[2]) && ('l' in r <==> f[3])
    ensures ('a' in r <==> f[4]) && ('c' in r <==> f[5]) && ('u' in r <==> f[6]) && ('p' in r <==> f[7])
  {
    assert PermissionLetters[0] == 'r' && PermissionLetters[1] == 'w' && PermissionLetters[2] == 'd';
    assert PermissionLetters[3] == 'l' && PermissionLetters[4] == 'a' && PermissionLetters[5] == 'c';
    assert PermissionLetters[6] == 'u' && PermissionLetters[7] == 'p';
  }

  /** `AccountPermissions(read, …, process, _str)`: each flag is set when passed
      as true (the fields of `given`) or when its letter occurs in `_str`;
      other characters are ignored. */
  function NewAccountPermissions(given: AccountPermissions, text: Option<string>): (r: AccountPermissions)
    ensures r.read == (given.read || 'r' in TextOrEmpty(text))
    ensures r.write == (given.write || 'w' in TextOrEmpty(text))
    ensures r.delete == (given.delete || 'd' in TextOrEmpty(text))
    ensures r.list == (given.list || 'l' in TextOrEmpty(text))
    ensures r.add == (given.add || 'a' in TextOrEmpty(text))
    ensures r.create == (given.create || 'c' in TextOrEmpty(text))
    ensures r.update == (given.update || 'u' in TextOrEmpty(text))
    ensures r.process == (given.process || 'p' in TextOrEmpty(text))
  {
    var t := TextOrEmpty(text);
    AccountPermissions(given.read || 'r' in t, given.write || 'w' in t, given.delete || 'd' in t,
                       given.list || 'l' in t, given.add || 'a' in t, given.create || 'c' in t,
                       given.update || 'u' in t, given.process || 'p' in t)
  }

  /** Parsing the rendering preserves all eight flags. */
  lemma AccountPermissionsRoundTrip(p: AccountPermissions)
    ensures NewAccountPermissions(NoPermissions, Some(p.ToString())) == p
  {
  }

  /** Characters outside "rwdlacup" do not change the parse. */
  lemma AccountPermissionsIgnoreUnknown(given: AccountPermissions, text: string, c: char)
    requires c !in PermissionLetters
    ensures NewAccountPermissions(given, Some(text + [c])) == NewAccountPermissions(given, Some(text))
  {
    assert forall d :: d in PermissionLetters ==> (d in text + [c] <==> d in text);
  }

  /** The union is commutative and idempotent. */
  lemma AccountPermissionsUnion(a: AccountPermissions, b: AccountPermissions)
    ensures a.Or(b) == b.Or(a)
    ensures a.Or(a) == a
  {
  }

  // ---------------------------------------------------------------------------
  // Services
  // ---------------------------------------------------------------------------

  const ServiceLetters: string := "bqf"

  /** The services an account SAS reaches: blob, queue and file. */
  datatype Services = Services(blob: bool, queue: bool, file: bool)
  {
    function Flags(): seq<bool>
    {
      [blob, queue, file]
    }

    /** `__str__`: the letters of the set flags, in the order "bqf". */
    function ToString(): (r: string)
      ensures Subsequence(r, ServiceLetters)
      ensures ('b' in r <==> blob) && ('q' in r <==> queue) && ('f' in r <==> file)
      ensures forall c :: c in r ==> c in ServiceLetters
    {
      assert Distinct(ServiceLetters);
      RenderHas(ServiceLetters, Flags());
      RenderOnlyLetters(ServiceLetters, Flags());
      RenderSubsequence(ServiceLetters, Flags());
      Render(ServiceLetters, Flags())
    }

    /** `__or__` and `__add__`: the flag-wise union. */
    function Or(other: Services): (r: Services)
      ensures r == Services(blob || other.blob, queue || other.queue, file || other.file)
    {
      NewServices(false, false, false, Some(ToString() + other.ToString()))
    }
  }

  /** `Services(blob, queue, file, _str)`: each flag is set when passed as true or
      when its letter occurs in `_str`. */
  function NewServices(blob: bool, queue: bool, file: bool, text: Option<string>): (r: Services)
    ensures r.blob == (blob || 'b' in TextOrEmpty(text))
    ensures r.queue == (queue || 'q' in TextOrEmpty(text))
    ensures r.file == (file || 'f' in TextOrEmpty(text))
  {
    var f := ParseFlags(ServiceLetters, [blob, queue, file], TextOrEmpty(text));
    Services(f[0], f[1], f[2])
  }

  /** Parsing the rendering gives the same flags back. */
  lemma ServicesRoundTrip(s: Services)
    ensures NewServices(false, false, false, Some(s.ToString())) == s
  {
  }

  /** The union is commutative and idempotent. */
  lemma ServicesUnion(a: Services, b: Services)
    ensures a.Or(b) == b.Or(a)
    ensures a.Or(a) == a
  {
  }

  // ---------------------------------------------------------------------------
  // get_enum_value
  // ---------------------------------------------------------------------------

  /** An argument of `get_enum_value`: None, a plain string, or an enum member
      with its value; a member of a `str` enum also compares equal to its value. */
  datatype EnumArg = Null | Text(text: string) | Member(value: string, strEnum: bool)

  /** The string a `str` enum member, or a plain string, compares equal to. */
  function ComparesAs(v: EnumArg): Option<string>
  {
    match v
    case Null => None
    case Text(t) => Some(t)
    case Member(value, strEnum) => if strEnum then Some(value) else None
  }

  /** `get_enum_value`: None for None, "None" or ""; the member's value for an
      enum member; otherwise the argument itself. */
  function GetEnumValue(v: EnumArg): (r: Option<string>)
    ensures r.None? <==> v.Null? || ComparesAs(v) == Some("None") || ComparesAs(v) == Some("")
    ensures r.Some? && v.Member? ==> r.value == v.value
    ensures r.Some? && v.Text? ==> r.value == v.text
  {
    if v.Null? || ComparesAs(v) == Some("None") || ComparesAs(v) == Some("") then None
    else if v.Member? then Some(v.value)
    else Some(v.text)
  }

  /** Applying the rule again to its own result changes nothing, except for a
      plain enum member whose value is "None" or "". */
  lemma {:induction false} GetEnumValueIdempotent(v: EnumArg)
    requires GetEnumValue(v).Some?
    requires v.Member? ==> v.value != "None" && v.value != ""
    ensures GetEnumValue(Text(GetEnumValue(v).value)) == GetEnumValue(v)
  {
    match v
    case Null =>
    case Text(t) =>
    case Member(value, strEnum) =>
      assert GetEnumValue(v) == Some(value);
  }

  // ---------------------------------------------------------------------------
  // DictMixin
  // ---------------------------------------------------------------------------

  /** An attribute name starting with "_" is private. */
  predicate Private(name: string)
  {
    |name| > 0 && name[0] == '_'
  }

  /** The public names of `names`, in their order in `names`. */
  function PublicNames(names: seq<string>): (r: seq<string>)
    ensures |r| <= |names|
    ensures forall k :: k in r <==> k in names && !Private(k)
    ensures Subsequence(r, names)
  {
    if names == [] then []
    else if Private(names[0]) then
      var rest := PublicNames(names[1..]);
      SubsequenceSkip(rest, names);
      rest
    else
      var rest := PublicNames(names[1..]);
      assert ([names[0]] + rest)[1..] == rest;
      [names[0]] + rest
  }

  /** Distinct names give distinct public names, so each public name is listed once. */
  lemma {:induction false} PublicNamesDistinct(names: seq<string>)
    ensures (forall i, j :: 0 <= i < j < |names| ==> names[i] != names[j]) ==>
      forall i, j :: 0 <= i < j < |PublicNames(names)| ==> PublicNames(names)[i] != PublicNames(names)[j]
  {
    if names != [] && forall i, j :: 0 <= i < j < |names| ==> names[i] != names[j] {
      var tail := names[1..];
      assert forall i, j :: 0 <= i < j < |tail| ==> tail[i] != tail[j] by {
        forall i, j | 0 <= i < j < |tail|
          ensures tail[i] != tail[j]
        {
          assert tail[i] == names[i + 1] && tail[j] == names[j + 1];
        }
      }
      PublicNamesDistinct(tail);
      if !Private(names[0]) {
        var rest := PublicNames(tail);
        assert names[0] !in tail by {
          forall i | 0 <= i < |tail|
            ensures tail[i] != names[0]
          {
            assert tail[i] == names[i + 1];
          }
        }
        assert names[0] !in rest;
        var r := [names[0]] + rest;
        assert PublicNames(names) == r;
        forall i, j | 0 <= i < j < |r|
          ensures r[i] != r[j]
        {
          if i == 0 {
            assert r[j] == rest[j - 1] && rest[j - 1] in rest;
          } else {
            assert r[i] == rest[i - 1] && r[j] == rest[j - 1];
          }
        }
      } else {
        assert PublicNames(names) == PublicNames(tail);
      }
    }
  }

  /** A name appended to the order is appended to the public names unless it is private. */
  lemma {:induction false} PublicNamesSnoc(names: seq<string>, k: string)
    ensures PublicNames(names + [k]) == PublicNames(names) + (if Private(k) then [] else [k])
  {
    if names == [] {
      assert names + [k] == [k];
      assert [k][1..] == [];
    } else {
      var tail, extra := names[1..], if Private(k) then [] else [k];
      assert (names + [k])[0] == names[0] && (names + [k])[1..] == tail + [k];
      PublicNamesSnoc(tail, k);
      if Private(names[0]) {
        assert PublicNames(names + [k]) == PublicNames(tail + [k]);
      } else {
        assert PublicNames(names + [k]) == [names[0]] + PublicNames(tail + [k]);
        assert [names[0]] + (PublicNames(tail) + extra) == ([names[0]] + PublicNames(tail)) + extra;
      }
    }
  }

  /** The insertion order after storing `pairs`: a name not yet present is
      appended when its first pair is stored. */
  function Appended<V>(names: seq<string>, pairs: seq<(string, Option<V>)>): seq<string>
    decreases |pairs|
  {
    if pairs == [] then names
    else
      var before := Appended(names, pairs[..|pairs| - 1]);
      if pairs[|pairs| - 1].0 in before then before else before + [pairs[|pairs| - 1].0]
  }

  /** Storing keeps the old order as a prefix and adds exactly the names of the pairs. */
  lemma {:induction false} AppendedGrows<V>(names: seq<string>, pairs: seq<(string, Option<V>)>)
    ensures names <= Appended(names, pairs)
    ensures forall k :: k in Appended(names, pairs) <==> k in names || exists i :: 0 <= i < |pairs| && pairs[i].0 == k
    decreases |pairs|
  {
    if pairs != [] {
      var n := |pairs| - 1;
      var init := pairs[..n];
      AppendedGrows(names, init);
      assert forall i :: 0 <= i < n ==> init[i] == pairs[i];
    }
  }


  /** A model whose attributes also work as dictionary entries. `names` is the
      attribute dictionary's insertion order, `attributes` its contents. */
  class DictMixin<V(==)> {
    var names: seq<string>
    var attributes: map<string, Option<V>>

    ghost predicate Valid()
      reads this
    {
      (forall k :: k in names <==> k in attributes)
      && (forall i, j :: 0 <= i < j < |names| ==> names[i] != names[j])
    }

    constructor ()
      ensures Valid() && names == [] && attributes == map[]
    {
      names := [];
      attributes := map[];
    }

    /** `__setitem__`: a new name is appended to the order; an existing one keeps its place. */
    method SetItem(key: string, item: Option<V>)
      requires Valid()
      modifies this
      ensures Valid()
      ensures attributes == old(attributes)[key := item]
      ensures names == if key in old(attributes) then old(names) else old(names) + [key]
    {
      if key !in attributes {
        names := names + [key];
      }
      attributes := attributes[key := item];
    }

    /** `__getitem__`: the stored value, or KeyError for an absent name. */
    function GetItem(key: string): (r: Result<Option<V>>)
      reads this
      ensures r.Ok? <==> key in attributes
      ensures r.Ok? ==> r.value == attributes[key]
      ensures r.Err? ==> r.error == KeyError(key)
    {
      if key in attributes then Ok(attributes[key]) else Err(KeyError(key))
    }

    /** `__delitem__`: the entry is set to None, not removed, so every name
        stays and the public count is unchanged for a name already present. */
    method DelItem(key: string)
      requires Valid()
      modifies this
      ensures Valid()
      ensures attributes == old(attributes)[key := None]
      ensures key in old(attributes) ==> names == old(names) && Len() == old(Len())
      ensures key !in old(attributes) ==>
        names == old(names) + [key] && Len() == old(Len()) + (if Private(key) then 0 else 1)
    {
      SetItem(key, None);
      PublicNamesSnoc(old(names), key);
    }

    /** `keys`: the public names, in insertion order. */
    function Keys(): (r: seq<string>)
      reads this
      ensures forall k :: k in r <==> k in names && !Private(k)
      ensures Subsequence(r, names)
      ensures Valid() ==> forall i, j :: 0 <= i < j < |r| ==> r[i] != r[j]
    {
      PublicNamesDistinct(names);
      PublicNames(names)
    }

    /** `values`: the values of the public names, in the same order as Keys. */
    function Values(): (r: seq<Option<V>>)
      requires Valid()
      reads this
      ensures |r| == |Keys()|
      ensures forall i :: 0 <= i < |r| ==> r[i] == attributes[Keys()[i]]
    {
      var ks, attrs := Keys(), attributes;
      seq(|ks|, i requires 0 <= i < |ks| => attrs[ks[i]])
    }

    /** `items`: the public (name, value) pairs, in the same order as Keys. */
    function Items(): (r: seq<(string, Option<V>)>)
      requires Valid()
      reads this
      ensures |r| == |Keys()|
      ensures forall i :: 0 <= i < |r| ==> r[i] == (Keys()[i], attributes[Keys()[i]])
    {
      var ks, attrs := Keys(), attributes;
      seq(|ks|, i requires 0 <= i < |ks| => (ks[i], attrs[ks[i]]))
    }

    /** `__len__`: the number of public names. */
    function Len(): (r: nat)
      reads this
      ensures r == |Keys()| && r <= |names|
    {
      |PublicNames(names)|
    }

    /** `has_key`: private names included. */
    function HasKey(key: string): (r: bool)
      reads this
      ensures r <==> GetItem(key).Ok?
    {
      key in attributes
    }

    /** `get`: the stored value (even None) when present, the default only when absent. */
    function Get(key: string, default: Option<V>): (r: Option<V>)
      reads this
      ensures HasKey(key) ==> r == GetItem(key).value
      ensures !HasKey(key) ==> r == default
    {
      if key in attributes then attributes[key] else default
    }

    /** `__eq__`: equal exactly when the attribute dictionaries are equal. */
    function Equals(other: DictMixin<V>): (r: bool)
      reads this, other
      ensures r <==> attributes == other.attributes
    {
      attributes == other.attributes
    }

    /** `update`: the pairs are stored one after the other, as a dict update
        does: a name keeps the value of its last pair. */
    method Update(pairs: seq<(string, Option<V>)>)
      requires Valid()
      modifies this
      ensures Valid()
      ensures attributes == Stored(old(attributes), pairs)
      ensures names == Appended(old(names), pairs)
    {
      var i := 0;
      while i < |pairs|
        invariant 0 <= i <= |pairs| && Valid()
        invariant attributes == Stored(old(attributes), pairs[..i])
        invariant names == Appended(old(names), pairs[..i])
      {
        assert pairs[..i + 1][..i] == pairs[..i];
        SetItem(pairs[i].0, pairs[i].1);
        i := i + 1;
      }
      assert pairs[..i] == pairs;
    }
  }

  /** The dictionary after storing `pairs` in order. */
  function Stored<V>(m: map<string, Option<V>>, pairs: seq<(string, Option<V>)>): map<string, Option<V>>
    decreases |pairs|
  {
    if pairs == [] then m
    else Stored(m, pairs[..|pairs| - 1])[pairs[|pairs| - 1].0 := pairs[|pairs| - 1].1]
  }

  /** After storing, a name is present iff it was or some pair names it, and it
      holds the value of the last pair naming it, or else its old value. */
  lemma {:induction false} StoredLastWins<V>(m: map<string, Option<V>>, pairs: seq<(string, Option<V>)>, k: string)
    ensures k in Stored(m, pairs) <==> k in m || exists i :: 0 <= i < |pairs| && pairs[i].0 == k
    ensures (forall i :: 0 <= i < |pairs| ==> pairs[i].0 != k) && k in m ==> Stored(m, pairs)[k] == m[k]
    ensures forall i :: 0 <= i < |pairs| && pairs[i].0 == k && (forall j :: i < j < |pairs| ==> pairs[j].0 != k) ==>
      k in Stored(m, pairs) && Stored(m, pairs)[k] == pairs[i].1
    decreases |pairs|
  {
    if pairs != [] {
      var n := |pairs| - 1;
      var init := pairs[..n];
      StoredLastWins(m, init, k);
      assert forall i :: 0 <= i < n ==> init[i] == pairs[i];
    }
  }
}

=== FILE: wrappers.dfy ===
/** Option, Result and Outcome: how the model states Python's `None` and the
    exceptions the client libraries raise. */
module Wrappers {

  /** A value that may be Python's `None`. */
  datatype Option<+T> = None | Some(value: T)

  /** The exceptions the modelled code raises (or lets through from a service call). */
  datatype Error =
    | ValueError(message: string)
    | TypeError(message: string)
    | KeyError(key: string)
    | EventDataError(message: string)
    | OperationTimeoutError(message: string)
    | ServiceError(code: string)   // a failed REST call, re-raised by process_storage_error

  /** Either a value or the exception raised instead of it. */
  datatype Result<+R> = Ok(value: R) | Err(error: Error)

  /** The outcome of code that returns nothing but may raise. */
  datatype Outcome = Pass | Fail(error: Error)

  /** Python truthiness of an optional string: `None` and `""` are false. */
  predicate Truthy(s: Option<string>)
  {
    s.Some? && s.value != ""
  }

  /** Python's `a or b` on two optional strings. */
  function OrElse(a: Option<string>, b: Option<string>): Option<string>
  {
    if Truthy(a) then a else b
  }
}
